=== FILE: README.md ===
# Form filler core, modelled in Dafny

A functional model of the fill pass of a browser extension that auto-fills web forms
(Google Forms question blocks, or the inputs of a generic page) from the user's
label/value presets. The model covers:

- **field detection**
  - structured forms: one field per question block with a heading
  - generic pages: the label fallback chain and the ancestor-heading context
  - each field keeps the index of its block or element;
- **value resolution**, three layers writing into one insertion-ordered JavaScript `Map`:
  1. the dictionary layer: an exact label first, then the fixed category/synonym table;
  2. the AI layer: an answer given as data, with keys read by `parseInt`;
  3. the fuzzy layer: a whole-token rule for short strings, otherwise substring either way;
- **the fill loop**, which looks each map key up among the detected fields *by position*;
- **the fill rules** for a question block:
  - dropdown, radio/checkbox, date and text, in that order;
  - the generic element rule: select, toggle, plain assignment.

Modules:

- `Text`: lower-casing, trimming, `includes`, `split(/\s+/)`, the date split, `padStart`.
- `Search`: `Array.prototype.find`, `indexOf` and the optional result.
- `Matching`: the dictionary and fuzzy matchers.
- `Fields`: the page as data, and field extraction.
- `Mapping`: the `Map` as a sequence of entries, and `parseInt`.
- `Resolution`: the layers, the resolved map and the fill plan.
- `Widgets`: the per-widget fill rules, each returning what it would click or write.
- `Scenarios`: a concrete page where the index/position mismatch loses a fill, and a gender question where the last fitting radio wins.

Four behaviours of the code are modelled as written and proved, not corrected:

- **Index versus position.** A field's `index` is its container's (or element's) position on the
  page, counting blocks and elements that yield no field. The fill loop uses that index as a
  position in the list of *detected* fields. As soon as one block yields no field, values go to
  the wrong field, or the loop reads `undefined` and the pass ends in a TypeError.
  - `Resolution.MisalignedStepMissesField` proves this in general.
  - `Scenarios.HeadinglessBlockLosesFill` shows it on a two-block page.
- **Unchecked AI keys.** AI keys are run through `parseInt` and never checked against the field
  indices.
  - A label-like key becomes `NaN`, which stops the loop (`Resolution.NaNKeyStopsFill`).
  - `"-1"` becomes -1.
- **Date parts.** Fewer than three parts is no date. More than three are accepted, and the parts
  after the third are ignored (`Widgets.ParseIgnoresExtraParts`).
- **Substring synonyms.** A choice fits a synonym cluster term when either includes the other,
  so "pr" fits "pria" and "male" fits "female". In a radio group each click unchecks the other
  radios, so the last fitting radio wins: the value "male" on the radios "male" and "female"
  leaves "female" checked, and filling again clicks "male" once more
  (`Scenarios.MaleValueEndsOnFemale`).

Other promises the code keeps, proved here:

- **The dictionary layer wins.** Its entries open the map and are never overwritten.
- **One value per key.** Keys stay distinct.
- **Map order.** The map the fill loop iterates holds the dictionary layer's keys in field order,
  then the AI answer's first entry per free key in answer order, then the fuzzy layer's keys in
  field order (`Resolution.ResolveOrder`); the first unresolvable key in that order ends the pass.
- **A match is always mapped.** Every field that either matcher can match has a map entry; a
  field only the fuzzy rule matches, and that the AI answer does not name, gets the fuzzy value.
- **The AI answer is used.** Once consulted, the first answer entry for each key that the
  dictionary layer left free is in the final map.
- **Checkboxes accumulate.** A checkbox ends checked exactly when it was checked before or it
  fits; a checked one is never clicked, and filling again clicks nothing.

## Model

| member | source | states |
|---|---|---|
| Text.Lower | content.js:132 | `toLowerCase` on ASCII: same length, no upper-case letter remains, upper-case letters move by 32, every other character is unchanged |
| Text.Trim | content.js:131 | `trim`: the result neither starts nor ends with white space and is the slice between the first and after the last non-space character |
| Text.TrimIdempotent | content.js:131-132 | trimming a trimmed label changes nothing |
| Text.ContainsIff | content.js:248 | `includes` holds exactly when the substring occurs at some position |
| Text.TokensCharacterized | content.js:263 | a non-empty string is an element of `split(/\s+/)` exactly when it occurs bounded by white space or the ends of the string |
| Text.TokensOfNoSpace | content.js:263 | a string without white space splits into itself alone |
| Text.SplitDate | content.js:423 | `split(/[-/.]/)` yields at least one part, and no part holds a separator |
| Text.SplitDatePiece | content.js:423 | a separator-free prefix followed by a separator is split off as the first part |
| Text.SplitJoin | content.js:423 | joining the parts with one separator character gives the value with every separator replaced: the split loses nothing but the separators |
| Text.JoinEnds | content.js:171 | a join starts with its first part and ends with its last |
| Text.JoinSnoc | content.js:171 | joining one more part appends the separator and that part to the join of the others |
| Text.Pad2 | content.js:454 | `padStart(2, '0')`: the string is kept as the suffix, preceded by zeros up to length two |
| Search.FindFirst | content.js:244-256 | `find` returns the first position that satisfies the predicate, or nothing when none does |
| Search.FindFirstAtMost | content.js:244 | any satisfying position bounds the found position from above |
| Matching.DictionaryMatch | content.js:230-257 | the first preset whose normalised label equals the field label wins; failing that, the first category whose key equals, or one of whose synonyms is included in, the label decides, and the first preset in that category is chosen; no category gives nothing |
| Matching.DictionaryMatchJustified | content.js:244-256 | a dictionary choice is either an exact label or a preset sharing a category with the field label |
| Matching.FuzzyMatch | content.js:259-267 | the first preset in order that fits under the fuzzy rule, with no ranking; none when none fits |
| Matching.ShortRuleIsWholeToken | content.js:262-263 | when either side has at most three characters, they fit exactly when one occurs as a whole white-space-delimited token of the other |
| Matching.LongRuleIsEitherWaySubstring | content.js:265 | otherwise they fit exactly when either occurs inside the other |
| Matching.ShortRuleSingleWords | content.js:262-263 | two single-word labels fit under the short rule only when they are equal |
| Matching.ShortRuleTokenExample | content.js:263 | "hp" fits "no hp aktif" |
| Matching.ShortRuleBoundaryExample | content.js:262-263 | "hp" does not fit "grouphp" |
| Fields.Or | content.js:127 | `a \|\| b` on strings: a present non-empty first operand, else the fallback |
| Fields.FirstTruthy | content.js:156-164 | the chained `\|\|` yields the first truthy candidate, else the empty string |
| Fields.Extract | content.js:123-136 | extraction keeps, in page order, the items that yield a field, each stamped with its page position; indices strictly increase |
| Fields.ExtractComplete | content.js:123-136 | every item that yields a field is represented by one carrying its position |
| Fields.IndexAtLeastPosition | content.js:123-130 | a field's index is never below its position in the field list |
| Fields.ExtractAligned | content.js:123-136 | when every item yields a field, indices and positions coincide |
| Fields.ExtractShifted | content.js:123-130 | when the first item yields none, every field's index exceeds its position |
| Fields.StructuredFields | content.js:121-137 | a field per question block with a heading; its label text is the heading lower-cased and trimmed, and its index is the block's position |
| Fields.StructuredComplete | content.js:124-136 | every block with a heading yields a field |
| Fields.StructuredBuild | content.js:124-136 | a block yields a field exactly when it has a heading; the caption is the trimmed heading, the label text the heading lower-cased and trimmed, and the options are the aria-label or else the text of each choice, one per choice in order |
| Fields.ShortLabel | content.js:156-164 | the short label is the first truthy of aria-label, placeholder, `label[for]`, form-group label, wrapping label and name, trimmed; an invalid `label[for]` query is never a label source, because reaching it throws (`Fields.GenericDetect`) |
| Fields.PresentMembers | content.js:147-151 | the trimmed text of every heading found is collected, and nothing else |
| Fields.PresentSnoc | content.js:145-153 | collecting is an order-preserving filter: one more ancestor level adds its trimmed heading at the end exactly when it has one |
| Fields.PresentPrefix | content.js:145-153 | the headings of the inner levels are collected first, as a prefix |
| Fields.PresentAt | content.js:147-151 | the heading at a level sits in the collection right after those of the levels inside it |
| Fields.PresentOrder | content.js:145-153 | a heading first met at a level comes after every heading met at a level inside it |
| Fields.Seen | content.js:146-153 | at most five ancestors are searched: every heading of the five innermost is collected, and only those (their order is `Fields.PresentOrder` on those five levels) |
| Fields.Outward | content.js:149-150 | collecting headings with `unshift` keeps each heading once and loses none |
| Fields.Context | content.js:143-154 | the context holds at most five headings, none twice, and exactly the headings of the five innermost ancestors |
| Fields.FullLabel | content.js:171 | the full label is the short label alone when there is no context; otherwise it is the context headings joined by " > ", then " > " and the short label; it starts with the outermost context heading and ends with the short label |
| Fields.OutwardOrder | content.js:143-154 | the context lists headings outermost first |
| Fields.OutwardReverses | content.js:149-150 | a heading collected first further in is listed later in the context |
| Fields.ContextOutermostFirst | content.js:143-154 | a heading first met at ancestor level d2 precedes in the context every heading met at a level inside d2; a text met again further out keeps the place of its inner occurrence |
| Fields.GenericBuild | content.js:170-181 | an element becomes a field exactly when its short label is non-empty |
| Fields.ListedElements | content.js:140 | the query lists every element except hidden inputs, and nothing else |
| Fields.ListedSnoc | content.js:140 | the listing is an order-preserving filter: an element added at the end is listed at the end exactly when it is not a hidden input |
| Fields.GenericFields | content.js:140-182 | a field per listed element with a non-empty short label; its label text is the lower-cased joined label, and its index is the element's position |
| Fields.GenericDetect | content.js:138-164 | detection aborts exactly when some listed element has falsy aria-label and placeholder and an id that makes the `label[for="…"]` selector invalid, since the SyntaxError leaves the pass; otherwise it yields the generic fields |
| Fields.GenericComplete | content.js:170-181 | every listed element with a non-empty short label yields a field |
| Fields.BlankAriaLabelDropsField | content.js:156-170 | a white-space aria-label wins the chain, trims to nothing and drops the element even when other sources would label it |
| Mapping.Put | content.js:192 | `Map.set`: an existing key keeps its position and takes the value, a new key is appended, every other entry stays, and keys stay distinct |
| Mapping.ParseDecimal | content.js:201 | `parseInt` reads back a decimal index followed by any text that does not continue the number |
| Mapping.ParseNegative | content.js:201 | a leading minus gives the negated number |
| Mapping.ParseSkipsSpace | content.js:201 | leading white space does not change the result |
| Mapping.ParseWordIsNaN | content.js:201 | a key that starts with neither a digit, a sign nor white space gives NaN |
| Mapping.UnsignedDecimal | content.js:201 | a decimal numeral is read as its value in base 10, never as a hex prefix |
| Mapping.Unsigned | content.js:201 | a number needs a digit first; a non-zero digit first always gives a number; after a "0x" prefix a number needs a hex digit |
| Mapping.ParseNumber | content.js:201 | an empty string is NaN; a negative number needs a leading minus; a number starts with a digit, or a sign followed by a digit |
| Mapping.ParseKey | content.js:201 | a blank key is NaN; a number needs a digit or sign as its first non-space character, and a negative one a minus there |
| Resolution.Visit | content.js:190-192 | one field's step: a guarded pass skips an already mapped index; otherwise a matched value is stored under the field's index, and no match changes nothing |
| Resolution.SweepGrows | content.js:190-193 | a layer pass only appends: keys already present stay in place |
| Resolution.SweepGuarded | content.js:208-213 | the fuzzy pass keeps every earlier entry, value included |
| Resolution.SweepNewKeys | content.js:190-193 | a layer pass adds only the fields' own indices |
| Resolution.SweepDistinct | content.js:190-193 | a layer pass keeps keys distinct |
| Resolution.SweepFromEmpty | content.js:187-193 | the dictionary layer holds only field indices, each once |
| Resolution.SweepCovers | content.js:190-192 | every field the matcher answers for ends up mapped |
| Resolution.SweepAbsent | content.js:190-193 | a pass introduces no key other than the fields' own |
| Resolution.SweepValue | content.js:190-192 | with distinct indices, a field not mapped before the pass is mapped to its matched value |
| Resolution.DictionaryLayer | content.js:187-193 | the dictionary layer's map has distinct keys, all of them field indices |
| Resolution.SweepOrder | content.js:190-193 | with distinct indices, a layer pass appends its keys in field order |
| Resolution.DictionaryLayerOrder | content.js:187-193 | the dictionary layer sets the matched fields' indices in field order |
| Resolution.MergeFree | content.js:200-203 | the AI merge only appends entries of the answer whose key the map did not hold, keeping keys distinct |
| Resolution.MergeFreeAdds | content.js:200-203 | an answer entry is added when the map did not hold its key and no earlier entry took it |
| Resolution.MergeFreeHolds | content.js:200-203 | after the merge every key the answer names is in the map |
| Resolution.MergeFreeOrder | content.js:200-203 | the merge appends its keys in the order the answer first names them |
| Resolution.MergeFreeFirstEntries | content.js:200-203 | every entry the merge appends is the first answer entry with its key |
| Resolution.AiLayerOrder | content.js:200-203 | the AI layer appends, in the answer's enumeration order, the first answer entry for each key that was free |
| Resolution.AiLayer | content.js:200-203 | the AI layer adds exactly the first answer entry for each key the map did not hold, with its key read by `parseInt`, and nothing else |
| Resolution.FuzzyLayer | content.js:207-213 | the fuzzy layer keeps the earlier map as a prefix and adds only field indices |
| Resolution.FuzzyLayerOrder | content.js:207-213 | the fuzzy layer appends the indices it sets in field order |
| Resolution.Consult | content.js:196-205 | the answer is consulted only while some field is unmapped, and then its first entry for each free key is added |
| Resolution.ConsultKeepsFree | content.js:200-203 | the AI layer sets only keys its answer names |
| Resolution.ConsultOrder | content.js:196-205 | consulting the answer appends in the answer's order, first entry per key, or appends nothing |
| Resolution.Resolve | content.js:115-213 | no presets or no fields give an empty map; the map's keys are always distinct |
| Resolution.DictionaryLayerKept | content.js:187-213 | the dictionary layer's entries open the final map and are never overwritten |
| Resolution.ResolveOrder | content.js:187-216 | with distinct indices, the map the fill loop iterates is three runs: the dictionary's keys in field order, then the answer's in answer order, then the fuzzy layer's in field order |
| Resolution.ForeignKeyFromOracle | content.js:196-205 | a key that is no field's index comes from the AI answer, with its key read by `parseInt` |
| Resolution.ResolveWithoutOracle | content.js:196-213 | with no answer the map is the dictionary layer followed by the fuzzy layer |
| Resolution.ExactLabelWins | content.js:187-213 | a field whose label equals a preset's normalised label is mapped to the first such preset's value, whatever the AI answers |
| Resolution.MatchedFieldIsMapped | content.js:187-213 | every field that the dictionary or the fuzzy rule can match is mapped |
| Resolution.SweepSkips | content.js:190-192 | with distinct indices, a field the matcher has no value for stays unmapped |
| Resolution.FreeAnswerEntryKept | content.js:196-213 | once the AI is consulted, the first answer entry for a key the dictionary layer left free is in the final map |
| Resolution.UnmatchedFieldStaysFree | content.js:187-203 | a field the dictionary rule does not match and no answer key names is still unmapped before the fuzzy layer |
| Resolution.FuzzyOnlyValue | content.js:187-213 | a field only the fuzzy rule matches, and that no answer key names, is mapped to the first fuzzily fitting preset's value |
| Resolution.FillPlan | content.js:216-223 | the loop visits entries in insertion order, reads `fields[key]` by position, and stops at the first key that reads undefined |
| Resolution.AlignedStepsHitTheirField | content.js:216-217 | when indices equal positions, each entry fills the field it was resolved for |
| Resolution.MisalignedStepMissesField | content.js:216-217 | when a field's index is not its position, its value goes to another field, or the pass aborts if the index is past the end |
| Resolution.NaNKeyStopsFill | content.js:201-217 | a NaN key aborts the loop at or before its entry |
| Widgets.PickOption | content.js:349-357 | a dropdown or select takes the first option whose normalised text includes, or is included in, the normalised value |
| Widgets.BlankOptionTakesOver | content.js:351-354 | an option blank after trimming fits every value, so no later option is taken |
| Widgets.BlankValueTakesFirst | content.js:391-396 | a value blank after trimming takes the first option |
| Widgets.EqualOptionFits | content.js:354 | an option equal to the value up to case and spaces is taken unless an earlier one fits |
| Widgets.TargetTerms | content.js:365-370 | the comparison terms are the first synonym cluster holding the value, else the value alone |
| Widgets.Buttons | content.js:317 | the block's radio and checkbox elements, and nothing else |
| Widgets.ButtonsSnoc | content.js:317 | the button query is an order-preserving filter: a choice added at the end is listed at the end exactly when it is a radio or checkbox |
| Widgets.ClickAt | content.js:381 | a click checks the button; a radio click unchecks every other radio of the question, a checkbox click touches nothing else; no label or role changes |
| Widgets.FitMask | content.js:372-377 | a button fits when its label equals the value or includes or is included in a target term |
| Widgets.Pass | content.js:372-384 | visiting buttons one by one changes no label or role |
| Widgets.FillOptions | content.js:361-385 | a button is clicked exactly when it fits and is unchecked at the moment the loop reaches it |
| Widgets.AfterOptions | content.js:372-384 | the block after the fill keeps every label and role |
| Widgets.PassCheckbox | content.js:372-384 | after visiting some buttons a checkbox is checked exactly when it was before, or it was visited and fits |
| Widgets.CheckedNeverClicked | content.js:380-382 | a checked checkbox is never clicked |
| Widgets.CheckboxOutcome | content.js:372-384 | after the fill a checkbox is checked exactly when it was before or it fits |
| Widgets.FillOptionsSettles | content.js:372-384 | in a checkbox group, filling the same value again clicks nothing |
| Widgets.EqualLabelChecked | content.js:376-382 | a checkbox labelled with the value is checked after the fill |
| Widgets.PassKeepsOneChecked | content.js:372-384 | a radio group with at most one checked radio keeps at most one checked through the fill |
| Widgets.PassIdle | content.js:376-383 | visits of buttons that do not fit change nothing |
| Widgets.VisitChecks | content.js:379-382 | a fitting button is checked right after its visit |
| Widgets.PassLastFit | content.js:372-384 | the visit of a radio group ends with the last fitting radio the only checked one |
| Widgets.LastFittingRadioWins | content.js:361-385 | in a radio group with at most one checked radio, the last fitting radio ends up the only checked one |
| Widgets.FirstButtonClicked | content.js:376-382 | the first button is clicked whenever it fits and is unchecked |
| Widgets.BothFitLaterWins | content.js:361-385 | of two unchecked fitting radios the second stays checked, and filling again clicks the first once more |
| Widgets.FemaleValueClicksPria | content.js:365-377 | "pr" is in the female cluster and inside "pria", so a female value fits the male option |
| Widgets.MaleValueClicksFemale | content.js:365-377 | "male" is inside "female", so a male value fits the female option |
| Widgets.ParseDate | content.js:423-433 | fewer than three parts is no date; a four-character first part is the year of a year-month-day date; otherwise a four-character third part is the year of a day-month-year date; otherwise no date |
| Widgets.ParseIgnoresExtraParts | content.js:423-431 | parts after the third are ignored: a year-first date followed by any separator and text parses to its three parts |
| Widgets.ParseYearFirst | content.js:427-428 | a year-first date with any separators parses back to its parts |
| Widgets.ParseDayFirst | content.js:429-430 | a day-first date with a four-character year parses back to its parts when the day is not four characters long |
| Widgets.ShortPartsNoDate | content.js:424-433 | "1-2-3" is no date |
| Widgets.SlotOf | content.js:437-455 | the aria-label's day, month and year words decide first, in that order; then the placeholder's dd, mm and yyyy; then a date-typed input takes the whole date; otherwise the input gets nothing |
| Widgets.DateInput | content.js:324 | a date input is an input; every date-typed input is one |
| Widgets.DateInputHasSlot | content.js:324-455 | every input the date selector finds gets a slot, because its capitalised aria words are among the lower-cased ones the slot rule reads |
| Widgets.DateInputsWritten | content.js:324-455 | once the value parses, the date rule writes every input its selector found |
| Text.LowerKeepsOccurrence | content.js:437 | lower-casing keeps every occurrence of a substring, lower-cased |
| Widgets.WholeDateRoundTrip | content.js:454 | the whole-date text is a year-first date that parses back to the year and the padded month and day |
| Widgets.FillDate | content.js:419-459 | an unparsable value writes nothing; an input is written exactly when it has a slot, and each slot gets its part of the date |
| Widgets.FillDateParts | content.js:427-451 | a year-first value puts its own day, month and year into the day, month and year inputs |
| Widgets.DayMonthYearPlaceholderGetsDay | content.js:447-448 | a "dd/mm/yyyy" placeholder input gets only the day |
| Widgets.TextLike | content.js:331 | a text-like control is no select, radio or checkbox; every textarea is one; an input without a `type` attribute is not |
| Widgets.FillText | content.js:331-337 | exactly the text-like controls whose value differs are written, with the value |
| Widgets.Write | content.js:333-334 | a write changes only the value of the written control, and nothing of the others |
| Widgets.FillTextSettles | content.js:331-337 | after the text rule every text-like control holds the value, and filling again writes nothing |
| Widgets.FillBlock | content.js:306-337 | an empty value does nothing; otherwise the first of listbox, buttons, date inputs and text inputs that the block holds decides, and only that rule runs |
| Widgets.ButtonsShadowText | content.js:316-321 | a block with radio buttons is never filled by the date or text rule |
| Widgets.ToggleLabel | content.js:403 | a toggle's label is its aria-label when that is non-empty, else its parent's text, lower-cased and trimmed |
| Widgets.FillElement | content.js:387-414 | an empty value does nothing; a select takes its first fitting option; a radio or checkbox is clicked exactly when unchecked and its label and the value include one another; a file input rejects the value; anything else is assigned the raw value |
| Widgets.UnlabelledToggleClicked | content.js:403-409 | a toggle with no label fits every value and is clicked when unchecked |
| Scenarios.PageFields | content.js:123-136 | on a page whose first block has no heading, the only field carries index 1 |
| Scenarios.PageDictionary | content.js:190-193 | the dictionary layer maps index 1 to the preset value |
| Scenarios.PageMapping | content.js:187-213 | no field is left for the other layers, whatever the AI answers |
| Scenarios.PagePlan | content.js:216-217 | index 1 reads past the single detected field and the loop throws before filling |
| Scenarios.HeadinglessBlockLosesFill | content.js:121-223 | together: the exactly matched "Nama" question is left empty and the pass ends in a TypeError |
| Scenarios.RepeatedHeadingKeepsInnerPlace | content.js:143-154 | headings "Details", "Contact", "Details" at levels 0 to 2 give the context "Contact > Details": the repeated outer text does not come first |
| Scenarios.QuotedIdEndsDetection | content.js:156-164 | an input labelled by its placeholder followed by an unlabelled input with a quote in its id: the first would be a field, yet detection aborts |
| Scenarios.GenderFits | content.js:365-377 | both "male" and "female" fit the value "male" |
| Scenarios.MaleValueEndsOnFemale | content.js:361-385 | the value "male" on unchecked radios "male" and "female" leaves "female" checked, and filling again clicks "male" |

## Left out

- Messaging with the extension's popup, the MutationObserver re-trigger, the reentrancy flag and the timers: these are I/O and scheduling, and the fill pass is modelled as one pure function of the page, the presets and the AI answer.
- Reading storage, choosing the active profile and the fill-mode gate: the presets are a parameter, and which layout applies is the caller's choice between `StructuredFields` and `GenericDetect`; after `Aborted` no layer runs and nothing is filled.
- The watermark and popup.js: outside the fill pass.
- The AI session, its prompt and its availability test: the answer is a parameter. It is the parsed object's entries in enumeration order, with string values; an unavailable or failing model answers with no entries. The hint and the option list of a field feed only the prompt, so the model records but never uses them.
- Event dispatch after each write, the 300 ms wait of the dropdown, and the TypeError itself: events and timing are not modelled, and the TypeError appears as `Plan.aborted`.
- The document-level queries (the page-wide `[role="option"]` list of an open dropdown, `label[for=id]`, `closest`, the heading found under each ancestor): they are given as plain data in `Element`, `Container` and the `pageOptions` parameter. For `label[for=id]` the data is the outcome of the query, which may be `Invalid`: which ids make the selector invalid is CSS syntax and is not modelled, so the element states it (an id holding a double quote is the common case).
- Text.Lower: ASCII letters only; JavaScript's Unicode case mapping is not modelled.
- Text.Trim: ASCII white space only (space, tab, line feed, vertical tab, form feed, carriage return); `trim` and `\s` also strip Unicode spaces.
- Mapping.ParseDecimal: `parseInt` of a number too large for a double loses precision; keys are unbounded integers here.
- Fields.GenericFields: the `type` attribute is compared as written; the browser matches `type="hidden"` without regard to case.
- Fields.GenericDetect: whether an id makes `label[for="…"]` an invalid selector is taken from the element (`Invalid`) rather than derived from CSS syntax, so the model does not say which ids throw, only what a throwing query does to the pass.
- Widgets.FillText: the `type` attribute is compared case-sensitively, as for the hidden-input query.
- Widgets.ClickAt: the radios of one question block are taken to form one group; radios of several groups in one block are not modelled.
- Widgets.FillElement: `innerText` of the parent and `element.checked` are given as data. The rule reads `element.type`, which the browser lower-cases and defaults to "text"; the model compares the raw `type` attribute, so an input with `type="RADIO"` is a toggle in the browser but not in the model, and likewise `type="FILE"`. Assigning a non-empty value to a file input throws (content.js:413), and the exception ends the fill loop; the model reports this as `Rejected`, but `FillPlan` does not take the outcome of each write into account, so it does not mark the entries after a rejected one as unfilled.
- Widgets.DateInput: the selector `input[type="date"]` at content.js:324 matches the attribute value without regard to case (`type="DATE"` is found); the model compares it case-sensitively, so such an input is not a date input in the model.
- Widgets.SlotOf: `input.type === 'date'` reads the lower-cased property as well; the model compares the raw attribute.
- Widgets.FillTextSettles: number and email inputs sanitise an assigned value (a number input drops a non-numeric one), so the value read back can differ from the one written and a second fill can write again; the model treats every text-like control as storing the value as given.
- String lengths in the fuzzy rule and the date rule count characters, where JavaScript counts UTF-16 code units.

=== FILE: fields.dfy ===
/** Field detection: the records a fill pass extracts from the page, in the
    structured (question-block) layout and in the generic (one input per
    field) layout, with the label fallback chain and the ancestor-heading
    context of the generic layout. The page itself is given as plain data:
    each attribute or text the filler reads is an `Option<string>`, None
    when the element or attribute is absent. */
module Fields {
  import opened Text
  import opened Search
  import opened Matching

  // ---------------------------------------------------------------- page elements

  datatype Tag = InputTag | TextareaTag | SelectTag

  /** An input-like element: tag, `type` attribute, accessible label,
      placeholder and current value. */
  datatype Control = Control(
    tag: Tag,
    typeAttr: Option<string>,
    ariaLabel: Option<string>,
    placeholder: Option<string>,
    value: string)

  datatype Role = RadioRole | CheckboxRole | OptionRole

  /** An element with a choice role, its aria-label, visible text and aria-checked. */
  datatype Choice = Choice(role: Role, ariaLabel: Option<string>, text: string, ariaChecked: Option<string>)

  /** A question block of a structured form: the text of its heading element
      if it has one, whether it holds a listbox, its choice-role elements and
      its input/textarea elements, each in document order. */
  datatype Container = Container(
    heading: Option<string>,
    hasListbox: bool,
    choices: seq<Choice>,
    controls: seq<Control>)

  /** The outcome of the `label[for="<id>"]` query of the label chain: the
      text of the label found (None when the id is empty or no such label
      exists), or `Invalid` when the id, pasted into the selector unescaped,
      does not leave a valid selector (an id holding a double quote, say),
      so that `querySelector` throws a SyntaxError. */
  datatype LabelQuery = Answered(text: Option<string>) | Invalid

  /** An input, textarea or select of a generic page with everything the label
      chain reads around it: the outcome of the `label[for]` query, the text of the first label in the closest
      form group, of the closest enclosing label, the name attribute; the
      heading found under each ancestor, innermost first (None where an
      ancestor holds none); the hint text; the option texts of a select; the
      text of the parent element and the checked state. */
  datatype Element = Element(
    control: Control,
    labelFor: LabelQuery,
    groupLabel: Option<string>,
    wrapLabel: Option<string>,
    name: Option<string>,
    headers: seq<Option<string>>,
    hint: Option<string>,
    options: seq<string>,
    parentText: string,
    checked: bool)

  /** A detected field. `index` is the position of its container or element
      in the page's list, not its position among the detected fields. */
  datatype Field = Field(index: nat, caption: string, labelText: string, options: seq<string>, hint: string)

  // ---------------------------------------------------------------- JavaScript truthiness

  /** A present, non-empty string. */
  predicate Truthy(o: Option<string>) {
    o.Some? && o.value != ""
  }

  /** `o || fallback` on strings. */
  function Or(o: Option<string>, fallback: string): (r: string)
    ensures Truthy(o) ==> r == o.value
    ensures !Truthy(o) ==> r == fallback
  {
    if Truthy(o) then o.value else fallback
  }

  /** `a || b || ... || ''`: the first truthy candidate, else the empty string. */
  function FirstTruthy(cands: seq<Option<string>>): (r: string)
    ensures forall i :: IsFirst(cands, Truthy, i) ==> r == cands[i].value
    ensures NoneMatch(cands, Truthy) ==> r == ""
  {
    match FindFirst(cands, Truthy)
    case Some(i) => cands[i].value
    case None => ""
  }

  // ---------------------------------------------------------------- extraction by position

  /** Keeps, in order, the elements for which `build` yields a field, and
      stamps each with the element's position. */
  function Extract<T>(xs: seq<T>, build: T -> Option<Field>): (r: seq<Field>)
    ensures |r| <= |xs|
    ensures forall k :: 0 <= k < |r| ==>
              r[k].index < |xs| && build(xs[r[k].index]).Some? && r[k] == build(xs[r[k].index]).value.(index := r[k].index)
    ensures forall a, b :: 0 <= a < b < |r| ==> r[a].index < r[b].index
    decreases |xs|
  {
    if |xs| == 0 then []
    else
      var n := |xs| - 1;
      var front := Extract(xs[..n], build);
      assert forall i :: 0 <= i < n ==> xs[..n][i] == xs[i];
      match build(xs[n])
      case None => front
      case Some(f) => front + [f.(index := n)]
  }

  /** Every element that yields a field is represented by one. */
  lemma {:induction false} ExtractComplete<T>(xs: seq<T>, build: T -> Option<Field>, i: nat) returns (k: nat)
    requires i < |xs| && build(xs[i]).Some?
    ensures k < |Extract(xs, build)| && Extract(xs, build)[k].index == i
    decreases |xs|
  {
    var n := |xs| - 1;
    var front := Extract(xs[..n], build);
    if i < n {
      assert xs[..n][i] == xs[i];
      k := ExtractComplete(xs[..n], build, i);
      assert Extract(xs, build)[k] == front[k];
    } else {
      assert Extract(xs, build) == front + [build(xs[n]).value.(index := n)];
      k := |front|;
    }
  }

  /** Strictly increasing indices never fall below their positions. */
  lemma {:induction false} IndexAtLeastPosition(fs: seq<Field>)
    requires forall a, b :: 0 <= a < b < |fs| ==> fs[a].index < fs[b].index
    ensures forall k :: 0 <= k < |fs| ==> fs[k].index >= k
    decreases |fs|
  {
    if |fs| > 0 {
      var n := |fs| - 1;
      assert forall k :: 0 <= k < n ==> fs[..n][k] == fs[k];
      IndexAtLeastPosition(fs[..n]);
      if n > 0 {
        assert fs[n - 1].index >= n - 1;
      }
    }
  }

  /** When every element yields a field, positions and indices coincide. */
  lemma {:induction false} ExtractAligned<T>(xs: seq<T>, build: T -> Option<Field>)
    requires forall i :: 0 <= i < |xs| ==> build(xs[i]).Some?
    ensures |Extract(xs, build)| == |xs|
    ensures forall k :: 0 <= k < |xs| ==> Extract(xs, build)[k].index == k
    decreases |xs|
  {
    if |xs| > 0 {
      var n := |xs| - 1;
      assert forall i :: 0 <= i < n ==> xs[..n][i] == xs[i];
      ExtractAligned(xs[..n], build);
      assert Extract(xs, build) == Extract(xs[..n], build) + [build(xs[n]).value.(index := n)];
    }
  }

  /** When the first element yields no field, every field sits before its index. */
  lemma ExtractShifted<T>(xs: seq<T>, build: T -> Option<Field>)
    requires |xs| > 0 && build(xs[0]).None?
    ensures forall k :: 0 <= k < |Extract(xs, build)| ==> Extract(xs, build)[k].index > k
  {
    var r := Extract(xs, build);
    assert forall k :: 0 <= k < |r| ==> r[k].index >= 1;
    var shifted := seq(|r|, k requires 0 <= k < |r| => r[k].(index := r[k].index - 1));
    assert forall k :: 0 <= k < |r| ==> shifted[k].index == r[k].index - 1;
    IndexAtLeastPosition(shifted);
  }

  // ---------------------------------------------------------------- structured layout

  /** `opt.getAttribute('aria-label') || opt.innerText` */
  function ChoiceText(c: Choice): string {
    Or(c.ariaLabel, c.text)
  }

  /** A question block with a heading becomes a field; its options are the
      texts of all its choice-role elements. */
  function StructuredBuild(c: Container): (r: Option<Field>)
    ensures r.Some? <==> c.heading.Some?
    ensures r.Some? ==> && r.value.caption == Trim(c.heading.value)
                        && r.value.labelText == Normalize(c.heading.value)
                        && |r.value.options| == |c.choices|
                        && (forall k :: 0 <= k < |c.choices| ==> r.value.options[k] == Or(c.choices[k].ariaLabel, c.choices[k].text))
                        && r.value.hint == ""
  {
    match c.heading
    case None => None
    case Some(h) => Some(Field(0, Trim(h), Trim(Lower(h)), seq(|c.choices|, k requires 0 <= k < |c.choices| => ChoiceText(c.choices[k])), ""))
  }

  /** Fields of a structured form: one per question block with a heading. */
  function StructuredFields(cs: seq<Container>): (fs: seq<Field>)
    ensures forall k :: 0 <= k < |fs| ==>
              && fs[k].index < |cs|
              && cs[fs[k].index].heading.Some?
              && fs[k].labelText == Normalize(cs[fs[k].index].heading.value)
    ensures forall a, b :: 0 <= a < b < |fs| ==> fs[a].index < fs[b].index
  {
    Extract(cs, StructuredBuild)
  }

  /** Every question block with a heading yields a field carrying its position. */
  lemma StructuredComplete(cs: seq<Container>, i: nat)
    requires i < |cs| && cs[i].heading.Some?
    ensures exists k :: 0 <= k < |StructuredFields(cs)| && StructuredFields(cs)[k].index == i
  {
    var k := ExtractComplete(cs, StructuredBuild, i);
    assert StructuredFields(cs)[k].index == i;
  }

  // ---------------------------------------------------------------- generic layout

  /** The query skips inputs whose type is "hidden". */
  predicate Listed(e: Element) {
    !(e.control.tag == InputTag && e.control.typeAttr == Some("hidden"))
  }

  /** The label sources in priority order: aria-label, placeholder, `label[for]`,
      form-group label, wrapping label, name. */
  function LabelSources(e: Element): seq<Option<string>> {
    [e.control.ariaLabel, e.control.placeholder, LabelForText(e.labelFor), e.groupLabel, e.wrapLabel, e.name]
  }

  /** The label text a `label[for]` query contributes to the chain; an invalid
      query contributes nothing, since reaching it ends detection instead
      (see `LabelQueryThrows`). */
  function LabelForText(q: LabelQuery): Option<string> {
    match q
    case Answered(t) => t
    case Invalid => None
  }

  /** The `||` chain reaches the `label[for]` query only when aria-label and
      placeholder are both falsy; an invalid query throws exactly then. */
  predicate LabelQueryThrows(e: Element) {
    !Truthy(e.control.ariaLabel) && !Truthy(e.control.placeholder) && e.labelFor.Invalid?
  }

  /** The short label: the first truthy source, trimmed. */
  function ShortLabel(e: Element): (r: string)
    ensures forall i :: IsFirst(LabelSources(e), Truthy, i) ==> r == Trim(LabelSources(e)[i].value)
    ensures NoneMatch(LabelSources(e), Truthy) ==> r == ""
  {
    Trim(FirstTruthy(LabelSources(e)))
  }

  /** Heading texts met on the walk up at most five ancestors, innermost first. */
  function Seen(headers: seq<Option<string>>): (r: seq<string>)
    ensures |r| <= 5
    ensures forall d :: 0 <= d < |headers| && d < 5 && headers[d].Some? ==> Trim(headers[d].value) in r
    ensures forall t :: t in r ==> HeadingAt(headers[..if |headers| < 5 then |headers| else 5], t)
  {
    var hs := headers[..if |headers| < 5 then |headers| else 5];
    assert forall d :: 0 <= d < |headers| && d < 5 ==> hs[d] == headers[d];
    PresentMembers(hs);
    Present(hs)
  }

  /** Some present heading of `hs` trims to `t`. */
  ghost predicate HeadingAt(hs: seq<Option<string>>, t: string) {
    exists d :: 0 <= d < |hs| && hs[d].Some? && Trim(hs[d].value) == t
  }

  /** A heading of a prefix is a heading of the whole. */
  lemma HeadingAtPrefix(pre: seq<Option<string>>, hs: seq<Option<string>>)
    requires |pre| <= |hs| && pre == hs[..|pre|]
    ensures forall t :: HeadingAt(pre, t) ==> HeadingAt(hs, t)
    ensures forall d :: 0 <= d < |pre| ==> pre[d] == hs[d]
  {
    forall t | HeadingAt(pre, t)
      ensures HeadingAt(hs, t)
    {
      var d :| 0 <= d < |pre| && pre[d].Some? && Trim(pre[d].value) == t;
      assert hs[d] == pre[d];
    }
  }

  /** Trimmed texts of the headings that are present, in order. */
  function Present(hs: seq<Option<string>>): (r: seq<string>)
    ensures |r| <= |hs|
    decreases |hs|
  {
    if |hs| == 0 then []
    else Present(hs[..|hs| - 1]) + (match hs[|hs| - 1] case Some(h) => [Trim(h)] case None => [])
  }

  /** Exactly the trimmed texts of the present headings are collected. */
  lemma {:induction false} PresentMembers(hs: seq<Option<string>>)
    ensures forall d :: 0 <= d < |hs| && hs[d].Some? ==> Trim(hs[d].value) in Present(hs)
    ensures forall t :: t in Present(hs) ==> HeadingAt(hs, t)
    decreases |hs|
  {
    if |hs| > 0 {
      var pre := hs[..|hs| - 1];
      PresentMembers(pre);
      HeadingAtPrefix(pre, hs);
    }
  }

  /** Collecting is an order-preserving filter: one more ancestor level adds
      its trimmed heading at the end exactly when it has one. */
  lemma {:induction false} PresentSnoc(hs: seq<Option<string>>, h: Option<string>)
    ensures Present(hs + [h]) == Present(hs) + (if h.Some? then [Trim(h.value)] else [])
  {
    assert (hs + [h])[..|hs|] == hs;
  }

  /** The headings of the inner levels are collected first, as a prefix. */
  lemma {:induction false} PresentPrefix(hs: seq<Option<string>>, d: nat)
    requires d <= |hs|
    ensures |Present(hs[..d])| <= |Present(hs)|
    ensures Present(hs[..d]) == Present(hs)[..|Present(hs[..d])|]
    decreases |hs|
  {
    if d < |hs| {
      var pre := hs[..|hs| - 1];
      assert hs[..d] == pre[..d];
      PresentPrefix(pre, d);
      assert hs == pre + [hs[|hs| - 1]];
      PresentSnoc(pre, hs[|hs| - 1]);
    } else {
      assert hs[..d] == hs;
    }
  }

  /** The heading at level `d` sits in the collection right after those of
      the levels inside it. */
  lemma {:induction false} PresentAt(hs: seq<Option<string>>, d: nat)
    requires d < |hs| && hs[d].Some?
    ensures |Present(hs[..d])| < |Present(hs)|
    ensures Present(hs)[|Present(hs[..d])|] == Trim(hs[d].value)
  {
    assert hs[..d + 1] == hs[..d] + [hs[d]];
    PresentSnoc(hs[..d], hs[d]);
    PresentPrefix(hs, d + 1);
  }

  /** Among the collected headings, the one first met at level `d2` comes
      after every heading met at a level inside it. */
  lemma {:induction false} PresentOrder(hs: seq<Option<string>>, d1: nat, d2: nat)
    requires d1 < d2 < |hs| && hs[d1].Some? && hs[d2].Some?
    requires forall d :: 0 <= d < d2 && hs[d].Some? ==> Trim(hs[d].value) != Trim(hs[d2].value)
    ensures Trim(hs[d1].value) in Present(hs) && Trim(hs[d2].value) in Present(hs)
    ensures FirstPos(Present(hs), Trim(hs[d1].value)) < FirstPos(Present(hs), Trim(hs[d2].value))
  {
    var s, t1, t2 := Present(hs), Trim(hs[d1].value), Trim(hs[d2].value);
    PresentAt(hs, d1);
    PresentAt(hs, d2);
    var p1, p2 := |Present(hs[..d1])|, |Present(hs[..d2])|;
    assert hs[..d2][..d1] == hs[..d1];
    PresentAt(hs[..d2], d1);
    assert p1 < p2;
    PresentPrefix(hs, d2);
    assert s[..p2] == Present(hs[..d2]);
    PresentMembers(hs[..d2]);
    assert forall d :: 0 <= d < d2 ==> hs[..d2][d] == hs[d];
    assert !HeadingAt(hs[..d2], t2);
    FirstPosUnique(s, t2, p2);
    assert s[..p1 + 1][p1] == t1;
    FirstPosPrefix(s, p1 + 1, t1);
  }

  ghost predicate NoDup(s: seq<string>) {
    forall a, b :: 0 <= a < b < |s| ==> s[a] != s[b]
  }

  /** The walk's `unshift` of every heading not already collected. */
  function Outward(seen: seq<string>): (r: seq<string>)
    ensures |r| <= |seen|
    ensures NoDup(r)
    ensures forall t :: t in r <==> t in seen
    decreases |seen|
  {
    if |seen| == 0 then []
    else
      var front := Outward(seen[..|seen| - 1]);
      var t := seen[|seen| - 1];
      assert forall u :: u in seen <==> u in seen[..|seen| - 1] || u == t;
      if t in front then front else [t] + front
  }

  /** Context prefix of a generic field. */
  function Context(headers: seq<Option<string>>): (r: seq<string>)
    ensures |r| <= 5
    ensures NoDup(r)
    ensures forall d :: 0 <= d < |headers| && d < 5 && headers[d].Some? ==> Trim(headers[d].value) in r
    ensures forall t :: t in r ==> HeadingAt(headers[..if |headers| < 5 then |headers| else 5], t)
  {
    Outward(Seen(headers))
  }

  /** The context lists the collected headings outermost first: each one was
      first met further out than every heading after it. */
  lemma {:induction false} OutwardOrder(seen: seq<string>)
    ensures forall a, b :: 0 <= a < b < |Outward(seen)| ==>
              FirstPos(seen, Outward(seen)[b]) < FirstPos(seen, Outward(seen)[a])
    decreases |seen|
  {
    if |seen| > 0 {
      var pre := seen[..|seen| - 1];
      var t := seen[|seen| - 1];
      var front := Outward(pre);
      assert seen == pre + [t];
      OutwardOrder(pre);
      forall u | u in pre
        ensures FirstPos(seen, u) == FirstPos(pre, u)
      {
        FirstPosExtend(pre, t, u);
      }
      if t !in front {
        FirstPosNew(pre, t);
        assert forall b :: 0 <= b < |front| ==> front[b] in pre;
      }
    }
  }

  /** The context lists headings outermost first: a heading first met at
      ancestor level `d2` precedes every heading met at a level inside it. */
  lemma {:induction false} ContextOutermostFirst(headers: seq<Option<string>>, d1: nat, d2: nat)
    requires d1 < d2 < |headers| && d2 < 5 && headers[d1].Some? && headers[d2].Some?
    requires forall d :: 0 <= d < d2 && headers[d].Some? ==> Trim(headers[d].value) != Trim(headers[d2].value)
    ensures Trim(headers[d1].value) in Context(headers) && Trim(headers[d2].value) in Context(headers)
    ensures FirstPos(Context(headers), Trim(headers[d2].value)) < FirstPos(Context(headers), Trim(headers[d1].value))
  {
    var hs := headers[..if |headers| < 5 then |headers| else 5];
    var t1, t2 := Trim(headers[d1].value), Trim(headers[d2].value);
    assert forall d :: 0 <= d <= d2 ==> hs[d] == headers[d];
    PresentOrder(hs, d1, d2);
    assert Seen(headers) == Present(hs);
    OutwardReverses(Present(hs), t1, t2);
  }

  /** A heading collected first further in is listed later in the context. */
  lemma OutwardReverses(seen: seq<string>, t1: string, t2: string)
    requires t1 in seen && t2 in seen && FirstPos(seen, t1) < FirstPos(seen, t2)
    ensures t1 in Outward(seen) && t2 in Outward(seen)
    ensures FirstPos(Outward(seen), t2) < FirstPos(Outward(seen), t1)
  {
    var c := Outward(seen);
    OutwardOrder(seen);
    var a, b := FirstPos(c, t2), FirstPos(c, t1);
    assert a != b;
  }

  /** The full label: context headings, then the short label, joined by " > ". */
  function FullLabel(e: Element): (r: string)
    ensures |ShortLabel(e)| <= |r| && r[|r| - |ShortLabel(e)|..] == ShortLabel(e)
    ensures Context(e.headers) == [] ==> r == ShortLabel(e)
    ensures Context(e.headers) != [] ==> var c := Context(e.headers)[0]; |c| <= |r| && r[..|c|] == c
    ensures Context(e.headers) != [] ==> r == Join(Context(e.headers), " > ") + " > " + ShortLabel(e)
  {
    var parts := Context(e.headers) + [ShortLabel(e)];
    JoinEnds(parts, " > ");
    if Context(e.headers) == [] then Join(parts, " > ")
    else JoinSnoc(Context(e.headers), ShortLabel(e), " > "); Join(parts, " > ")
  }

  /** An element becomes a field only when its short label is non-empty. */
  function GenericBuild(e: Element): (r: Option<Field>)
    ensures r.Some? <==> ShortLabel(e) != ""
  {
    var short := ShortLabel(e);
    if short == "" then None
    else
      var full := FullLabel(e);
      Some(Field(0, full, Lower(full), if e.control.tag == SelectTag then e.options else [],
                 match e.hint case Some(h) => Trim(h) case None => ""))
  }

  /** Elements the generic query lists, in document order. */
  function ListedElements(es: seq<Element>): (r: seq<Element>)
    ensures |r| <= |es|
    ensures forall e :: e in r <==> e in es && Listed(e)
    decreases |es|
  {
    if |es| == 0 then []
    else (if Listed(es[0]) then [es[0]] else []) + ListedElements(es[1..])
  }

  /** The listing is an order-preserving filter: one more element at the end
      adds itself at the end of the listing exactly when it is listed. */
  lemma {:induction false} ListedSnoc(es: seq<Element>, e: Element)
    ensures ListedElements(es + [e]) == ListedElements(es) + (if Listed(e) then [e] else [])
    decreases |es|
  {
    if |es| > 0 {
      assert (es + [e])[1..] == es[1..] + [e];
      ListedSnoc(es[1..], e);
    }
  }

  /** Fields of a generic page: one per listed element with a non-empty short label. */
  function GenericFields(es: seq<Element>): (fs: seq<Field>)
    ensures forall k :: 0 <= k < |fs| ==>
              && fs[k].index < |ListedElements(es)|
              && ShortLabel(ListedElements(es)[fs[k].index]) != ""
              && fs[k].labelText == Lower(FullLabel(ListedElements(es)[fs[k].index]))
    ensures forall a, b :: 0 <= a < b < |fs| ==> fs[a].index < fs[b].index
  {
    Extract(ListedElements(es), GenericBuild)
  }

  /** What generic detection hands to the layers: the fields, or `Aborted`
      when a label query threw. The loop has no handler around it, so the
      exception leaves the whole pass: no layer runs and nothing is filled,
      even for the elements listed before the one that threw. */
  datatype Detection = Detected(fields: seq<Field>) | Aborted

  /** Generic detection with its exception path: it aborts exactly when some
      listed element reaches an invalid `label[for]` query, and otherwise
      yields the fields of `GenericFields`. */
  function GenericDetect(es: seq<Element>): (r: Detection)
    ensures r.Aborted? <==> exists i :: 0 <= i < |ListedElements(es)| && LabelQueryThrows(ListedElements(es)[i])
    ensures r.Detected? ==> r.fields == GenericFields(es)
  {
    match FindFirst(ListedElements(es), LabelQueryThrows)
    case Some(_) => Aborted
    case None => Detected(GenericFields(es))
  }

  /** Every listed element with a non-empty short label yields a field
      carrying its position among the listed elements. */
  lemma GenericComplete(es: seq<Element>, i: nat)
    requires i < |ListedElements(es)| && ShortLabel(ListedElements(es)[i]) != ""
    ensures exists k :: 0 <= k < |GenericFields(es)| && GenericFields(es)[k].index == i
  {
    var k := ExtractComplete(ListedElements(es), GenericBuild, i);
    assert GenericFields(es)[k].index == i;
  }

  /** A white-space-only aria-label is truthy, so it wins the chain and trims
      to nothing: the element is dropped even when a placeholder or name
      would have labelled it. */
  lemma BlankAriaLabelDropsField(e: Element)
    requires e.control.ariaLabel == Some(" ")
    ensures GenericBuild(e).None?
  {
    assert IsFirst(LabelSources(e), Truthy, 0);
    assert Trim(" ") == "" by {
      assert NextNonSpace(" ", 0) == 1;
    }
  }
}

=== FILE: mapping.dfy ===
/** The JavaScript `Map` from field index to value that the three resolution
    layers build, kept in insertion order, and the `parseInt` that turns the
    AI layer's object keys into map keys. */
module Mapping {
  import opened Text
  import opened Search

  /** A map key: a number `parseInt` produced, or NaN when it found no digits.
      Map keys compare with SameValueZero, so NaN equals NaN and -0 equals 0. */
  datatype Key = Idx(n: int) | NaN

  /** A Map's entries in insertion order. */
  type Entries = seq<(Key, string)>

  /** Map.has */
  predicate Has(m: Entries, k: Key) {
    exists i :: 0 <= i < |m| && m[i].0 == k
  }

  /** The keys of `m`, in order; Map.has(k) is `k in Keys(m)`. */
  function Keys(m: Entries): (r: seq<Key>)
    ensures |r| == |m| && forall i :: 0 <= i < |m| ==> r[i] == m[i].0
    ensures forall k :: k in r <==> Has(m, k)
  {
    seq(|m|, i requires 0 <= i < |m| => m[i].0)
  }

  /** No key occurs twice, as in every Map; then `(k, v) in m` says that
      Map.get(k) is v. */
  ghost predicate DistinctKeys(m: Entries) {
    forall a, b :: 0 <= a < b < |m| ==> m[a].0 != m[b].0
  }

  /** Map.set: a present key keeps its position and takes the new value; an
      absent key is appended. */
  function Put(m: Entries, k: Key, v: string): (r: Entries)
    ensures |r| == if Has(m, k) then |m| else |m| + 1
    ensures forall i :: 0 <= i < |m| ==> r[i].0 == m[i].0
    ensures forall i :: 0 <= i < |m| && m[i].0 != k ==> r[i] == m[i]
    ensures !Has(m, k) ==> r[|m|] == (k, v)
    ensures (k, v) in r
    ensures forall e :: e in m && e.0 != k ==> e in r
    ensures DistinctKeys(m) ==> DistinctKeys(r)
  {
    var updated := seq(|m|, i requires 0 <= i < |m| => if m[i].0 == k then (k, v) else m[i]);
    if Has(m, k) then
      var i :| 0 <= i < |m| && m[i].0 == k;
      assert updated[i] == (k, v);
      updated
    else
      assert (updated + [(k, v)])[|m|] == (k, v);
      updated + [(k, v)]
  }

  // ---------------------------------------------------------------- parseInt

  /** Value of `c` as a digit in `radix` (10 or 16), if it is one. */
  function DigitValue(c: char, radix: nat): (r: Option<nat>)
    ensures r.Some? ==> r.value < radix || radix < 10
  {
    if '0' <= c <= '9' && (c as int - '0' as int) < radix then Some(c as int - '0' as int)
    else if radix == 16 && 'a' <= c <= 'f' then Some(c as int - 'a' as int + 10)
    else if radix == 16 && 'A' <= c <= 'F' then Some(c as int - 'A' as int + 10)
    else None
  }

  predicate IsDigitIn(c: char, radix: nat) {
    DigitValue(c, radix).Some?
  }

  /** End of the run of `radix` digits starting at `i`. */
  function DigitEnd(s: string, i: nat, radix: nat): (r: nat)
    requires i <= |s|
    ensures i <= r <= |s|
    ensures forall k :: i <= k < r ==> IsDigitIn(s[k], radix)
    ensures r < |s| ==> !IsDigitIn(s[r], radix)
    decreases |s| - i
  {
    if i < |s| && IsDigitIn(s[i], radix) then DigitEnd(s, i + 1, radix) else i
  }

  /** The value of a digit character, 0 for any other. */
  function DigitOf(c: char, radix: nat): nat {
    match DigitValue(c, radix)
    case Some(d) => d
    case None => 0
  }

  /** Positional value of a run of digits, most significant first. */
  function Value(ds: string, radix: nat): nat
    decreases |ds|
  {
    if |ds| == 0 then 0
    else Value(ds[..|ds| - 1], radix) * radix + DigitOf(ds[|ds| - 1], radix)
  }

  /** parseInt(s) with no radix: leading white space is skipped. */
  function ParseKey(s: string): (r: Key)
    ensures NextNonSpace(s, 0) == |s| ==> r == NaN
    ensures r.Idx? && r.n < 0 ==> NextNonSpace(s, 0) < |s| && s[NextNonSpace(s, 0)] == '-'
    ensures r.Idx? ==> var i := NextNonSpace(s, 0);
              i < |s| && (IsDigitIn(s[i], 10) || s[i] == '-' || s[i] == '+')
  {
    ParseNumber(s[NextNonSpace(s, 0)..])
  }

  /** The rest of parseInt: an optional sign, then an unsigned number. */
  function ParseNumber(t: string): (r: Key)
    ensures |t| == 0 ==> r == NaN
    ensures r.Idx? && r.n < 0 ==> t[0] == '-'
    ensures r.Idx? ==> |t| > 0 && (IsDigitIn(t[0], 10) || ((t[0] == '-' || t[0] == '+') && |t| > 1 && IsDigitIn(t[1], 10)))
  {
    var negative := |t| > 0 && t[0] == '-';
    var u := if |t| > 0 && (t[0] == '-' || t[0] == '+') then t[1..] else t;
    match Unsigned(u)
    case None => NaN
    case Some(v) => Idx(if negative then -(v as int) else v)
  }

  /** An unsigned number: a "0x"/"0X" prefix selects base 16, and the
      longest run of digits that follows is the number; no digits gives NaN. */
  function Unsigned(u: string): (r: Option<nat>)
    ensures r.Some? ==> |u| > 0 && IsDigitIn(u[0], 10)
    ensures |u| > 0 && '1' <= u[0] <= '9' ==> r.Some?
    ensures r.Some? && |u| >= 2 && u[0] == '0' && (u[1] == 'x' || u[1] == 'X') ==> |u| > 2 && IsDigitIn(u[2], 16)
  {
    var hex := |u| >= 2 && u[0] == '0' && (u[1] == 'x' || u[1] == 'X');
    var ds := if hex then u[2..] else u;
    var radix := if hex then 16 else 10;
    var e := DigitEnd(ds, 0, radix);
    if e == 0 then None else Some(Value(ds[..e], radix))
  }

  // ---------------------------------------------------------------- decimal keys

  function DigitChar(d: nat): (c: char)
    requires d < 10
    ensures DigitValue(c, 10) == Some(d)
  {
    ('0' as int + d) as char
  }

  /** The decimal numeral of `n` as an object key is written. */
  function Decimal(n: nat): (s: string)
    ensures |s| >= 1 && forall k :: 0 <= k < |s| ==> IsDigitIn(s[k], 10)
    ensures s[0] == '0' ==> n == 0
    decreases n
  {
    if n < 10 then [DigitChar(n)] else Decimal(n / 10) + [DigitChar(n % 10)]
  }

  lemma {:induction false} DecimalValue(n: nat)
    ensures Value(Decimal(n), 10) == n
    decreases n
  {
    if n >= 10 {
      var s := Decimal(n);
      assert s[..|s| - 1] == Decimal(n / 10);
      DecimalValue(n / 10);
    }
  }

  /** A decimal numeral followed by text that does not continue it reads
      back as its number. */
  lemma UnsignedDecimal(n: nat, rest: string)
    requires rest == [] || (!IsDigitIn(rest[0], 10) && rest[0] != 'x' && rest[0] != 'X')
    ensures Unsigned(Decimal(n) + rest) == Some(n)
  {
    var d := Decimal(n);
    DecimalNoPrefix(n, rest);
    DigitRunEnd(d, rest);
    assert (d + rest)[..|d|] == d;
    DecimalValue(n);
  }

  /** A decimal numeral never looks like a "0x" prefix. */
  lemma DecimalNoPrefix(n: nat, rest: string)
    requires rest == [] || (rest[0] != 'x' && rest[0] != 'X')
    ensures var s := Decimal(n) + rest;
            !(|s| >= 2 && s[0] == '0' && (s[1] == 'x' || s[1] == 'X'))
  {
    var d := Decimal(n);
    var s := d + rest;
    assert s[0] == d[0];
    assert |d| == 1 && |rest| > 0 ==> s[1] == rest[0];
    assert |d| > 1 ==> s[1] == d[1];
  }

  /** A run of digits followed by a non-digit ends where the run ends. */
  lemma DigitRunEnd(d: string, rest: string)
    requires forall k :: 0 <= k < |d| ==> IsDigitIn(d[k], 10)
    requires rest == [] || !IsDigitIn(rest[0], 10)
    ensures DigitEnd(d + rest, 0, 10) == |d|
  {
    var s := d + rest;
    var e := DigitEnd(s, 0, 10);
    assert forall k :: 0 <= k < |d| ==> s[k] == d[k];
    assert |d| < |s| ==> s[|d|] == rest[0];
  }

  /** A decimal key followed by text that does not continue the number
      parses back to its number: "3", "3.5" and "3: nama" all give 3. */
  lemma ParseDecimal(n: nat, rest: string)
    requires rest == [] || (!IsDigitIn(rest[0], 10) && rest[0] != 'x' && rest[0] != 'X')
    ensures ParseKey(Decimal(n) + rest) == Idx(n)
  {
    var s := Decimal(n) + rest;
    assert s[0] == Decimal(n)[0];
    assert NextNonSpace(s, 0) == 0;
    assert s[0..] == s;
    UnsignedDecimal(n, rest);
  }

  /** A minus sign negates: "-1" gives -1, a key no field carries. */
  lemma ParseNegative(n: nat)
    ensures ParseKey("-" + Decimal(n)) == Idx(-(n as int))
  {
    var d := Decimal(n);
    var s := "-" + d;
    assert NextNonSpace(s, 0) == 0;
    assert s[0..] == s;
    assert s[1..] == d + [];
    UnsignedDecimal(n, []);
  }

  lemma {:induction false} NextNonSpaceShift(w: string, s: string, i: nat)
    requires i <= |s|
    ensures NextNonSpace(w + s, |w| + i) == |w| + NextNonSpace(s, i)
    decreases |s| - i
  {
    if i < |s| {
      assert (w + s)[|w| + i] == s[i];
      if IsSpace(s[i]) {
        NextNonSpaceShift(w, s, i + 1);
      }
    }
  }

  lemma {:induction false} NextNonSpaceOverSpace(w: string, s: string, j: nat)
    requires AllSpace(w) && j <= |w|
    ensures NextNonSpace(w + s, j) == NextNonSpace(w + s, |w|)
    decreases |w| - j
  {
    if j < |w| {
      assert (w + s)[j] == w[j];
      NextNonSpaceOverSpace(w, s, j + 1);
    }
  }

  /** Leading white space is skipped: " 3" gives what "3" gives. */
  lemma ParseSkipsSpace(w: string, s: string)
    requires AllSpace(w)
    ensures ParseKey(w + s) == ParseKey(s)
  {
    NextNonSpaceOverSpace(w, s, 0);
    NextNonSpaceShift(w, s, 0);
    var a := NextNonSpace(s, 0);
    var t := (w + s)[NextNonSpace(w + s, 0)..];
    assert t == s[a..];
    assert ParseKey(w + s) == ParseNumber(t);
  }

  /** A key that starts with neither a digit, a sign nor white space is NaN:
      "nama" gives NaN. */
  lemma ParseWordIsNaN(s: string)
    requires |s| > 0 && !IsSpace(s[0]) && !IsDigitIn(s[0], 10) && s[0] != '-' && s[0] != '+'
    ensures ParseKey(s) == NaN
  {
    assert NextNonSpace(s, 0) == 0;
    assert s[0..] == s;
  }
}

=== FILE: matching.dfy ===
/** The preset-matching rules of the form filler: the dictionary layer
    (exact label first, then a fixed category/synonym table) and the fuzzy
    layer (whole-token rule for short strings, substring either way otherwise).
    Both return the position of the chosen preset. */
module Matching {
  import opened Text
  import opened Search

  /** A user-authored label/value pair. */
  datatype Preset = Preset(caption: string, value: string)

  /** A dictionary entry: a canonical key and the tokens that signal it. */
  datatype Category = Category(key: string, synonyms: seq<string>)

  /** The fixed category table of the dictionary layer, in lookup order. */
  const Dictionary: seq<Category> := [
    Category("nama", ["nama", "lengkap", "peserta", "name", "identitas", "panggilan", "customer", "pelanggan"]),
    Category("telepon", ["telepon", "phone", "wa", "whatsapp", "kontak", "hp", "telp", "aktif", "emergency", "darurat", "no aktif"]),
    Category("alamat", ["alamat", "address", "domisili", "ktp", "tinggal", "rumah", "lokasi", "location"]),
    Category("nik", ["nik", "nomer induk keluarga", "nomer induk kependudukan", "nomor induk keluarga", "nomor induk kependudukan", "id card", "identitas diri", "nomor induk", "identity"]),
    Category("kk", ["kk", "kartu keluarga", "no kk", "nomor kartu keluarga", "nomer kartu keluarga"]),
    Category("email", ["email", "surel", "pos-el", "mail"]),
    Category("tgl", ["tanggal", "lahir", "date", "birth"]),
    Category("kelamin", ["jenis kelamin", "gender", "sex", "pria", "wanita", "laki-laki", "perempuan", "lk", "pr"]),
    Category("agama", ["agama", "religion", "faith"]),
    Category("status", ["kondisi", "keadaan", "status", "keterangan", "bocor", "fungsi", "normal", "good"])
  ]

  /** A label as the matcher compares it: lower-cased, then trimmed. */
  function Normalize(s: string): string {
    Trim(Lower(s))
  }

  /** Some term of `terms` is included in `text`. */
  predicate MentionsAny(text: string, terms: seq<string>) {
    exists k :: 0 <= k < |terms| && Contains(text, terms[k])
  }

  /** The preset's normalised label is the field's label text verbatim. */
  function ExactLabel(labelText: string): Preset -> bool {
    (p: Preset) => Normalize(p.caption) == labelText
  }

  /** The field's label text names the category: it is the key, or it includes a synonym. */
  function LabelIn(labelText: string): Category -> bool {
    (c: Category) => labelText == c.key || MentionsAny(labelText, c.synonyms)
  }

  /** The preset's normalised label names the category in the same way. */
  function PresetIn(c: Category): Preset -> bool {
    (p: Preset) => Normalize(p.caption) == c.key || MentionsAny(Normalize(p.caption), c.synonyms)
  }

  /** Dictionary layer for one field. */
  function DictionaryMatch(labelText: string, presets: seq<Preset>): (r: Option<nat>)
    ensures r.Some? ==> r.value < |presets|
    // an exact label wins, and it is the first exact one
    ensures !NoneMatch(presets, ExactLabel(labelText)) ==>
              r.Some? && IsFirst(presets, ExactLabel(labelText), r.value)
    // no exact label and no category: nothing
    ensures NoneMatch(presets, ExactLabel(labelText)) && NoneMatch(Dictionary, LabelIn(labelText)) ==>
              r.None?
    // no exact label: the first preset of the field's first category, if any
    ensures forall c :: NoneMatch(presets, ExactLabel(labelText)) && IsFirst(Dictionary, LabelIn(labelText), c) ==>
              && (r.Some? ==> IsFirst(presets, PresetIn(Dictionary[c]), r.value))
              && (r.None? ==> NoneMatch(presets, PresetIn(Dictionary[c])))
  {
    match FindFirst(presets, ExactLabel(labelText))
    case Some(i) => Some(i)
    case None =>
      match FindFirst(Dictionary, LabelIn(labelText))
      case None => None
      case Some(c) => FindFirst(presets, PresetIn(Dictionary[c]))
  }

  /** When the dictionary layer picks a preset, that preset either carries the
      label verbatim or shares a category with the label: it never picks an
      unrelated preset. */
  lemma DictionaryMatchJustified(labelText: string, presets: seq<Preset>)
    requires DictionaryMatch(labelText, presets).Some?
    ensures var p := presets[DictionaryMatch(labelText, presets).value];
            || Normalize(p.caption) == labelText
            || exists c :: 0 <= c < |Dictionary| && LabelIn(labelText)(Dictionary[c]) && PresetIn(Dictionary[c])(p)
  {
    if NoneMatch(presets, ExactLabel(labelText)) {
      var c := FindFirst(Dictionary, LabelIn(labelText)).value;
      assert IsFirst(Dictionary, LabelIn(labelText), c);
    }
  }

  // ---------------------------------------------------------------- fuzzy layer

  /** The fuzzy rule between a normalised preset label and a field's label text. */
  predicate FuzzyFits(pLabel: string, labelText: string) {
    if |pLabel| <= 3 || |labelText| <= 3 then
      pLabel in Tokens(labelText) || labelText in Tokens(pLabel)
    else
      Contains(labelText, pLabel) || Contains(pLabel, labelText)
  }

  function FuzzyPreset(labelText: string): Preset -> bool {
    (p: Preset) => FuzzyFits(Normalize(p.caption), labelText)
  }

  /** Fuzzy layer for one field: the first preset in order that fits, no ranking. */
  function FuzzyMatch(labelText: string, presets: seq<Preset>): (r: Option<nat>)
    ensures r.Some? ==> IsFirst(presets, FuzzyPreset(labelText), r.value)
    ensures r.None? ==> NoneMatch(presets, FuzzyPreset(labelText))
  {
    FindFirst(presets, FuzzyPreset(labelText))
  }

  /** Short strings (three characters or fewer) fit only as a whole
      white-space-delimited token of the other string. */
  lemma ShortRuleIsWholeToken(pLabel: string, labelText: string)
    requires pLabel != "" && labelText != ""
    requires |pLabel| <= 3 || |labelText| <= 3
    ensures FuzzyFits(pLabel, labelText) <==>
              (exists i :: TokenAt(labelText, pLabel, i)) || (exists i :: TokenAt(pLabel, labelText, i))
  {
    TokensCharacterized(labelText, pLabel);
    TokensCharacterized(pLabel, labelText);
  }

  /** Longer strings fit when either occurs inside the other. */
  lemma LongRuleIsEitherWaySubstring(pLabel: string, labelText: string)
    requires |pLabel| > 3 && |labelText| > 3
    ensures FuzzyFits(pLabel, labelText) <==>
              (exists i :: OccursAt(labelText, pLabel, i)) || (exists i :: OccursAt(pLabel, labelText, i))
  {
    ContainsIff(labelText, pLabel);
    ContainsIff(pLabel, labelText);
  }

  /** "hp" fits "no hp aktif", where it is a token. */
  lemma ShortRuleTokenExample()
    ensures FuzzyFits("hp", "no hp aktif")
  {
    assert TokenAt("no hp aktif", "hp", 3);
    TokensComplete("no hp aktif", "hp", 3);
  }

  /** Two single-word labels fit under the short rule only when they are equal:
      a short label never fits inside a longer word. */
  lemma ShortRuleSingleWords(pLabel: string, labelText: string)
    requires NoSpace(pLabel) && NoSpace(labelText)
    requires |pLabel| <= 3 || |labelText| <= 3
    ensures FuzzyFits(pLabel, labelText) <==> pLabel == labelText
  {
    TokensOfNoSpace(pLabel);
    TokensOfNoSpace(labelText);
  }

  /** "hp" does not fit "grouphp": no token boundary precedes it. */
  lemma ShortRuleBoundaryExample()
    ensures !FuzzyFits("hp", "grouphp")
  {
    ShortRuleSingleWords("hp", "grouphp");
  }
}

=== FILE: resolution.dfy ===
/** Value resolution: the three layers that build the index-to-value map
    (dictionary, then the AI oracle's answer, then fuzzy) and the fill loop
    that looks each map key up among the detected fields by position. */
module Resolution {
  import opened Search
  import opened Matching
  import opened Fields
  import opened Mapping

  /** The map key of a field. */
  function KeyOf(f: Field): Key {
    Idx(f.index)
  }

  /** The keys of all detected fields, in order. */
  function FieldKeys(fields: seq<Field>): (r: seq<Key>)
    ensures |r| == |fields| && forall j :: 0 <= j < |fields| ==> r[j] == KeyOf(fields[j])
  {
    seq(|fields|, j requires 0 <= j < |fields| => KeyOf(fields[j]))
  }

  /** No two detected fields share an index, as both extractions guarantee. */
  ghost predicate DistinctIndices(fields: seq<Field>) {
    forall a, b :: 0 <= a < b < |fields| ==> fields[a].index != fields[b].index
  }

  /** A key held by a prefix is held by the whole. */
  lemma PrefixHas(m: Entries, r: Entries)
    requires |m| <= |r| && r[..|m|] == m
    ensures forall k :: Has(m, k) ==> Has(r, k)
  {
    assert forall i :: 0 <= i < |m| ==> r[i] == m[i];
  }

  /** Appending entries loses no entry and no key. */
  lemma PrefixKeeps(m: Entries, r: Entries)
    requires |m| <= |r| && r[..|m|] == m
    ensures forall e :: e in m ==> e in r
    ensures forall k :: Has(m, k) ==> Has(r, k)
  {
    assert forall i :: 0 <= i < |m| ==> r[i] == m[i];
  }

  /** Being a prefix is transitive. */
  lemma PrefixChain(a: Entries, b: Entries, c: Entries)
    requires |a| <= |b| && b[..|a|] == a
    requires |b| <= |c| && c[..|b|] == b
    ensures |a| <= |c| && c[..|a|] == a
  {
    assert forall i :: 0 <= i < |a| ==> c[i] == b[i] == a[i];
  }

  /** From position `lo` on, the keys `ks` are keys of `keys` and come in
      the order of their first positions there. */
  ghost predicate InFirstOrder(ks: seq<Key>, lo: nat, keys: seq<Key>) {
    && (forall i :: lo <= i < |ks| ==> ks[i] in keys)
    && (forall i, j {:trigger FirstPos(keys, ks[i]), FirstPos(keys, ks[j])} ::
          lo <= i < j < |ks| ==> FirstPos(keys, ks[i]) < FirstPos(keys, ks[j]))
  }

  /** The entries of `m` from position `lo` on have keys in `keys` order. */
  ghost predicate AppendedInOrder(m: Entries, lo: nat, keys: seq<Key>) {
    InFirstOrder(Keys(m), lo, keys)
  }

  /** From position `lo` on, every entry of `m` is the first entry of `es`
      with its key. */
  ghost predicate AppendedFirstEntries(m: Entries, lo: nat, es: Entries) {
    forall i :: lo <= i < |m| ==> m[i].0 in Keys(es) && m[i] == es[FirstPos(Keys(es), m[i].0)]
  }

  /** Keys in order for a prefix of `keys` are in order for the whole, all
      before position `n`. */
  lemma AppendedPrefix(ks: seq<Key>, lo: nat, keys: seq<Key>, n: nat)
    requires n <= |keys| && InFirstOrder(ks, lo, keys[..n])
    ensures InFirstOrder(ks, lo, keys)
    ensures forall i :: lo <= i < |ks| ==> FirstPos(keys, ks[i]) < n
  {
    forall i | lo <= i < |ks|
      ensures ks[i] in keys && FirstPos(keys, ks[i]) == FirstPos(keys[..n], ks[i]) < n
    {
      FirstPosPrefix(keys, n, ks[i]);
    }
  }

  /** Appending a key first met at position `n` after keys that come before
      `n` keeps the order. */
  lemma AppendedStep(ks: seq<Key>, lo: nat, keys: seq<Key>, n: nat)
    requires lo <= |ks| && n < |keys| && FirstPos(keys, keys[n]) == n
    requires InFirstOrder(ks, lo, keys) && forall i :: lo <= i < |ks| ==> FirstPos(keys, ks[i]) < n
    ensures InFirstOrder(ks + [keys[n]], lo, keys)
  {
    var r := ks + [keys[n]];
    assert forall i :: 0 <= i < |ks| ==> r[i] == ks[i];
  }

  // ---------------------------------------------------------------- one layer

  /** What one field does to the map in a pass: a guarded pass skips a
      field whose index is already mapped; otherwise the value `pick` gives
      is set under the field's index, and no value leaves the map alone. */
  function Visit(m: Entries, f: Field, pick: Field -> Option<string>, guarded: bool): (r: Entries)
    ensures |m| <= |r| <= |m| + 1
    ensures forall i :: 0 <= i < |m| ==> r[i].0 == m[i].0
    ensures guarded ==> r[..|m|] == m
    ensures forall i :: |m| <= i < |r| ==> r[i].0 == KeyOf(f)
    ensures DistinctKeys(m) ==> DistinctKeys(r)
    ensures forall e :: e in m && e.0 != KeyOf(f) ==> e in r
    ensures pick(f).Some? && !(guarded && Has(m, KeyOf(f))) ==> (KeyOf(f), pick(f).value) in r
    ensures guarded && Has(m, KeyOf(f)) ==> r == m
    ensures pick(f).None? ==> r == m
    ensures pick(f).Some? ==> Has(r, KeyOf(f))
  {
    var k := KeyOf(f);
    if guarded && Has(m, k) then m
    else
      match pick(f)
      case None => m
      case Some(v) =>
        var r := Put(m, k, v);
        assert !Has(m, k) ==> r == m + [(k, v)];
        r
  }

  /** One `fields.forEach` pass: each field, in order, is visited. */
  function Sweep(fields: seq<Field>, m: Entries, pick: Field -> Option<string>, guarded: bool): Entries
    decreases |fields|
  {
    if |fields| == 0 then m
    else Visit(Sweep(fields[..|fields| - 1], m, pick, guarded), fields[|fields| - 1], pick, guarded)
  }

  /** A pass only appends: every key it started with stays in place. */
  lemma {:induction false} SweepGrows(fields: seq<Field>, m: Entries, pick: Field -> Option<string>, guarded: bool)
    ensures var r := Sweep(fields, m, pick, guarded);
            |m| <= |r| && forall i :: 0 <= i < |m| ==> r[i].0 == m[i].0
    decreases |fields|
  {
    if |fields| > 0 {
      var n := |fields| - 1;
      SweepGrows(fields[..n], m, pick, guarded);
    }
  }

  /** A guarded pass keeps every entry it started with, value included. */
  lemma {:induction false} SweepGuarded(fields: seq<Field>, m: Entries, pick: Field -> Option<string>)
    ensures var r := Sweep(fields, m, pick, true);
            |m| <= |r| && r[..|m|] == m
    decreases |fields|
  {
    if |fields| > 0 {
      var n := |fields| - 1;
      var m1 := Sweep(fields[..n], m, pick, true);
      var r := Visit(m1, fields[n], pick, true);
      SweepGuarded(fields[..n], m, pick);
      PrefixChain(m, m1, r);
    }
  }

  /** The keys of a prefix of the fields are among the keys of all of them. */
  lemma FieldKeysPrefix(fields: seq<Field>, n: nat)
    requires n <= |fields|
    ensures forall k :: k in FieldKeys(fields[..n]) ==> k in FieldKeys(fields)
  {
    assert forall j :: 0 <= j < n ==> FieldKeys(fields[..n])[j] == FieldKeys(fields)[j];
  }

  /** A pass adds only the fields' own keys. */
  lemma {:induction false} SweepNewKeys(fields: seq<Field>, m: Entries, pick: Field -> Option<string>, guarded: bool)
    ensures var r := Sweep(fields, m, pick, guarded);
            forall i :: |m| <= i < |r| ==> r[i].0 in FieldKeys(fields)
    decreases |fields|
  {
    if |fields| > 0 {
      var n := |fields| - 1;
      var m1 := Sweep(fields[..n], m, pick, guarded);
      SweepNewKeys(fields[..n], m, pick, guarded);
      SweepGrows(fields[..n], m, pick, guarded);
      FieldKeysPrefix(fields, n);
      assert FieldKeys(fields)[n] == KeyOf(fields[n]);
    }
  }

  /** A pass keeps keys distinct. */
  lemma {:induction false} SweepDistinct(fields: seq<Field>, m: Entries, pick: Field -> Option<string>, guarded: bool)
    ensures DistinctKeys(m) ==> DistinctKeys(Sweep(fields, m, pick, guarded))
    decreases |fields|
  {
    if |fields| > 0 {
      SweepDistinct(fields[..|fields| - 1], m, pick, guarded);
    }
  }

  /** A pass from an empty map holds only the fields' own keys, each once. */
  lemma SweepFromEmpty(fields: seq<Field>, pick: Field -> Option<string>)
    ensures var r := Sweep(fields, [], pick, false);
            DistinctKeys(r) && forall i :: 0 <= i < |r| ==> r[i].0 in FieldKeys(fields)
  {
    SweepNewKeys(fields, [], pick, false);
    SweepDistinct(fields, [], pick, false);
  }

  /** Every field `pick` answers for ends up mapped. */
  lemma {:induction false} SweepCovers(fields: seq<Field>, m: Entries, pick: Field -> Option<string>, guarded: bool, j: nat)
    requires j < |fields| && pick(fields[j]).Some?
    ensures Has(Sweep(fields, m, pick, guarded), KeyOf(fields[j]))
    decreases |fields|
  {
    var n := |fields| - 1;
    var m1 := Sweep(fields[..n], m, pick, guarded);
    var r := Sweep(fields, m, pick, guarded);
    assert r == Visit(m1, fields[n], pick, guarded);
    if j < n {
      assert fields[..n][j] == fields[j];
      SweepCovers(fields[..n], m, pick, guarded, j);
    }
  }

  /** A sweep introduces no key other than the fields' own. */
  lemma SweepAbsent(fields: seq<Field>, m: Entries, pick: Field -> Option<string>, guarded: bool, k: Key)
    requires !Has(m, k) && k !in FieldKeys(fields)
    ensures !Has(Sweep(fields, m, pick, guarded), k)
  {
    SweepGrows(fields, m, pick, guarded);
    SweepNewKeys(fields, m, pick, guarded);
  }

  /** With distinct indices, a field that was not mapped beforehand is mapped
      to the value `pick` gives it. */
  lemma {:induction false} SweepValue(fields: seq<Field>, m: Entries, pick: Field -> Option<string>, guarded: bool, j: nat)
    requires DistinctIndices(fields)
    requires j < |fields| && pick(fields[j]).Some?
    requires !Has(m, KeyOf(fields[j]))
    ensures (KeyOf(fields[j]), pick(fields[j]).value) in Sweep(fields, m, pick, guarded)
    decreases |fields|
  {
    var n := |fields| - 1;
    var m1 := Sweep(fields[..n], m, pick, guarded);
    var r := Sweep(fields, m, pick, guarded);
    assert r == Visit(m1, fields[n], pick, guarded);
    assert forall i :: 0 <= i < n ==> fields[..n][i] == fields[i];
    if j < n {
      SweepValue(fields[..n], m, pick, guarded, j);
      assert KeyOf(fields[j]) != KeyOf(fields[n]);
    } else {
      assert forall q :: 0 <= q < n ==> FieldKeys(fields[..n])[q] != KeyOf(fields[n]);
      SweepAbsent(fields[..n], m, pick, guarded, KeyOf(fields[n]));
    }
  }

  /** With distinct indices the last field's key is no earlier field's. */
  lemma LastKeyFresh(fields: seq<Field>)
    requires DistinctIndices(fields) && |fields| > 0
    ensures KeyOf(fields[|fields| - 1]) !in FieldKeys(fields[..|fields| - 1])
  {
    var n := |fields| - 1;
    assert forall q :: 0 <= q < n ==> FieldKeys(fields[..n])[q] == KeyOf(fields[q]) != KeyOf(fields[n]);
  }

  /** Visiting a field leaves another key unmapped. */
  lemma VisitOtherKey(m: Entries, f: Field, pick: Field -> Option<string>, guarded: bool, k: Key)
    requires !Has(m, k) && KeyOf(f) != k
    ensures !Has(Visit(m, f, pick, guarded), k)
  {
  }

  /** With distinct indices, a field `pick` has no value for stays unmapped
      when it was unmapped beforehand. */
  lemma {:induction false} SweepSkips(fields: seq<Field>, m: Entries, pick: Field -> Option<string>, guarded: bool, j: nat)
    requires DistinctIndices(fields)
    requires j < |fields| && pick(fields[j]).None?
    requires !Has(m, KeyOf(fields[j]))
    ensures !Has(Sweep(fields, m, pick, guarded), KeyOf(fields[j]))
    decreases |fields|
  {
    var n := |fields| - 1;
    var k := KeyOf(fields[j]);
    var m1 := Sweep(fields[..n], m, pick, guarded);
    var r := Sweep(fields, m, pick, guarded);
    assert r == Visit(m1, fields[n], pick, guarded);
    assert forall i :: 0 <= i < n ==> fields[..n][i] == fields[i];
    if j == n {
      LastKeyFresh(fields);
      SweepAbsent(fields[..n], m, pick, guarded, k);
    } else {
      SweepSkips(fields[..n], m, pick, guarded, j);
      assert KeyOf(fields[n]) != k;
      VisitOtherKey(m1, fields[n], pick, guarded, k);
    }
  }

  /** With distinct indices, a pass appends its entries in field order. */
  lemma {:induction false} SweepOrder(fields: seq<Field>, m: Entries, pick: Field -> Option<string>, guarded: bool)
    ensures DistinctIndices(fields) ==> AppendedInOrder(Sweep(fields, m, pick, guarded), |m|, FieldKeys(fields))
    decreases |fields|
  {
    if |fields| > 0 && DistinctIndices(fields) {
      var n := |fields| - 1;
      var ks, pre := FieldKeys(fields), fields[..n];
      var m1 := Sweep(pre, m, pick, guarded);
      var r := Sweep(fields, m, pick, guarded);
      assert r == Visit(m1, fields[n], pick, guarded);
      FieldKeysStep(fields);
      SweepOrder(pre, m, pick, guarded);
      SweepGrows(pre, m, pick, guarded);
      VisitKeys(m1, fields[n], pick, guarded);
      OrderStep(Keys(m1), Keys(r), |m|, ks, n);
    }
  }

  /** With distinct indices, the last field's key is first met last. */
  lemma FieldKeysStep(fields: seq<Field>)
    requires DistinctIndices(fields) && |fields| > 0
    ensures var n, ks := |fields| - 1, FieldKeys(fields);
            && DistinctIndices(fields[..n]) && FieldKeys(fields[..n]) == ks[..n]
            && FirstPos(ks, ks[n]) == n && ks[n] == KeyOf(fields[n])
  {
    var n, ks := |fields| - 1, FieldKeys(fields);
    assert forall i :: 0 <= i < n ==> fields[..n][i] == fields[i];
    assert FieldKeys(fields[..n]) == ks[..n];
    LastKeyFresh(fields);
    FirstPosUnique(ks, KeyOf(fields[n]), n);
  }

  /** A visit keeps the keys and may append the field's own. */
  lemma VisitKeys(m: Entries, f: Field, pick: Field -> Option<string>, guarded: bool)
    ensures var r := Visit(m, f, pick, guarded);
            Keys(r) == Keys(m) || Keys(r) == Keys(m) + [KeyOf(f)]
  {
    var r := Visit(m, f, pick, guarded);
    if |r| == |m| {
      assert Keys(r) == Keys(m);
    } else {
      assert Keys(r) == Keys(m) + [KeyOf(f)];
    }
  }

  /** Keys in order for the first `n` of `keys`, then possibly the key at
      `n`, are in order for all of `keys`. */
  lemma OrderStep(ks: seq<Key>, ks1: seq<Key>, lo: nat, keys: seq<Key>, n: nat)
    requires lo <= |ks| && n < |keys| && FirstPos(keys, keys[n]) == n
    requires InFirstOrder(ks, lo, keys[..n])
    requires ks1 == ks || ks1 == ks + [keys[n]]
    ensures InFirstOrder(ks1, lo, keys)
  {
    AppendedPrefix(ks, lo, keys, n);
    if ks1 != ks {
      AppendedStep(ks, lo, keys, n);
    }
  }

  // ---------------------------------------------------------------- the three layers

  /** The value of the preset a match chose. */
  function ValueOf(presets: seq<Preset>, choice: Option<nat>): Option<string> {
    match choice
    case Some(i) => if i < |presets| then Some(presets[i].value) else None
    case None => None
  }

  /** What the dictionary layer sets for a field: the value of the preset it matches. */
  function DictionaryValue(presets: seq<Preset>, f: Field): Option<string> {
    ValueOf(presets, DictionaryMatch(f.labelText, presets))
  }

  function DictionaryPick(presets: seq<Preset>): Field -> Option<string> {
    (f: Field) => DictionaryValue(presets, f)
  }

  /** What the fuzzy layer sets for a field. */
  function FuzzyValue(presets: seq<Preset>, f: Field): Option<string> {
    ValueOf(presets, FuzzyMatch(f.labelText, presets))
  }

  function FuzzyPick(presets: seq<Preset>): Field -> Option<string> {
    (f: Field) => FuzzyValue(presets, f)
  }

  /** Layer 1: every field with a dictionary match, unguarded, from an empty map. */
  function DictionaryLayer(fields: seq<Field>, presets: seq<Preset>): (m: Entries)
    ensures DistinctKeys(m)
    ensures forall i :: 0 <= i < |m| ==> m[i].0 in FieldKeys(fields)
  {
    SweepFromEmpty(fields, DictionaryPick(presets));
    Sweep(fields, [], DictionaryPick(presets), false)
  }

  /** The oracle's entries with their keys as parseInt reads them. */
  function Parsed(answer: seq<(string, string)>): (r: Entries)
    ensures |r| == |answer|
    ensures forall a :: 0 <= a < |answer| ==> r[a] == (ParseKey(answer[a].0), answer[a].1)
  {
    seq(|answer|, a requires 0 <= a < |answer| => (ParseKey(answer[a].0), answer[a].1))
  }

  /** Entry `a` is the first of `es` with its key. */
  ghost predicate FirstForKey(es: Entries, a: int)
    requires 0 <= a < |es|
  {
    forall b :: 0 <= b < a ==> es[b].0 != es[a].0
  }

  /** Answer entry `a` is the first whose key parseInt reads as this number. */
  ghost predicate FirstAnswerForKey(answer: seq<(string, string)>, a: int)
    requires 0 <= a < |answer|
  {
    forall b :: 0 <= b < a ==> ParseKey(answer[b].0) != ParseKey(answer[a].0)
  }

  /** Layer 2: the oracle's entries in enumeration order, each key run
      through parseInt and set only if that key is still free. Nothing
      checks that a key is a field index. */
  function AiLayer(m: Entries, answer: seq<(string, string)>): (r: Entries)
    ensures |m| <= |r| && r[..|m|] == m
    ensures forall i :: |m| <= i < |r| ==> r[i] in Parsed(answer) && !Has(m, r[i].0)
    ensures forall a :: 0 <= a < |answer| && !Has(m, ParseKey(answer[a].0)) && FirstAnswerForKey(answer, a) ==>
              (ParseKey(answer[a].0), answer[a].1) in r
    ensures DistinctKeys(m) ==> DistinctKeys(r)
  {
    var es := Parsed(answer);
    forall a | 0 <= a < |answer| && !Has(m, ParseKey(answer[a].0)) && FirstAnswerForKey(answer, a)
      ensures es[a] in MergeFree(m, es)
    {
      MergeFreeAdds(m, es, a);
    }
    MergeFree(m, es)
  }

  /** Adds each entry whose key is still free, in order: an entry is added
      exactly when no earlier one took its key and the map did not hold it. */
  function MergeFree(m: Entries, es: Entries): (r: Entries)
    ensures |m| <= |r| && r[..|m|] == m
    ensures forall i :: |m| <= i < |r| ==> r[i] in es && !Has(m, r[i].0)
    ensures DistinctKeys(m) ==> DistinctKeys(r)
    decreases |es|
  {
    if |es| == 0 then m
    else
      var n := |es| - 1;
      var m1 := MergeFree(m, es[..n]);
      var k := es[n].0;
      assert forall x :: x in es[..n] ==> x in es;
      if Has(m1, k) then m1
      else
        // Map.set of an absent key appends it
        PrefixHas(m, m1);
        m1 + [es[n]]
  }

  /** An entry whose key the map did not hold and no earlier entry took is added. */
  lemma {:induction false} MergeFreeAdds(m: Entries, es: Entries, a: nat)
    requires a < |es| && !Has(m, es[a].0) && FirstForKey(es, a)
    ensures es[a] in MergeFree(m, es)
    decreases |es|
  {
    var n := |es| - 1;
    var m1 := MergeFree(m, es[..n]);
    var r := MergeFree(m, es);
    var k := es[n].0;
    PrefixKeeps(m1, r);
    if a < n {
      assert es[..n][a] == es[a];
      assert FirstForKey(es[..n], a);
      MergeFreeAdds(m, es[..n], a);
    }
  }

  /** One merge step: the last entry is appended exactly when its key is free. */
  lemma MergeFreeStep(m: Entries, es: Entries)
    requires |es| > 0
    ensures var m1, e := MergeFree(m, es[..|es| - 1]), es[|es| - 1];
            MergeFree(m, es) == if Has(m1, e.0) then m1 else m1 + [e]
  {
  }

  /** After merging, every key of the merged entries is held. */
  lemma {:induction false} MergeFreeHolds(m: Entries, es: Entries)
    ensures forall b :: 0 <= b < |es| ==> Has(MergeFree(m, es), es[b].0)
    decreases |es|
  {
    if |es| > 0 {
      var n := |es| - 1;
      var m1 := MergeFree(m, es[..n]);
      var r := MergeFree(m, es);
      MergeFreeHolds(m, es[..n]);
      MergeFreeStep(m, es);
      assert Has(r, es[n].0) by {
        if !Has(m1, es[n].0) { assert r[|m1|] == es[n]; }
      }
      forall b | 0 <= b < n
        ensures Has(r, es[b].0)
      {
        assert es[..n][b] == es[b];
        var i :| 0 <= i < |m1| && m1[i].0 == es[b].0;
        assert r[i] == m1[i];
      }
    }
  }

  /** Merging appends new keys in the order of their first entries in `es`. */
  lemma {:induction false} MergeFreeOrder(m: Entries, es: Entries)
    ensures AppendedInOrder(MergeFree(m, es), |m|, Keys(es))
    decreases |es|
  {
    if |es| > 0 {
      var n := |es| - 1;
      var ks, pre := Keys(es), es[..n];
      var m1 := MergeFree(m, pre);
      var r := MergeFree(m, es);
      MergeFreeOrder(m, pre);
      assert Keys(pre) == ks[..n];
      MergeFreeStep(m, es);
      if Has(m1, es[n].0) {
        assert r == m1;
        AppendedPrefix(Keys(m1), |m|, ks, n);
      } else {
        MergeFreeFresh(m, es);
        FirstPosUnique(ks, es[n].0, n);
        assert Keys(r) == Keys(m1) + [ks[n]];
        OrderStep(Keys(m1), Keys(r), |m|, ks, n);
      }
    }
  }

  /** A last entry that merging appends carries a key no earlier entry has. */
  lemma MergeFreeFresh(m: Entries, es: Entries)
    requires |es| > 0 && !Has(MergeFree(m, es[..|es| - 1]), es[|es| - 1].0)
    ensures es[|es| - 1].0 !in Keys(es)[..|es| - 1]
  {
    var n := |es| - 1;
    MergeFreeHolds(m, es[..n]);
    assert forall b :: 0 <= b < n ==> Keys(es)[..n][b] == es[..n][b].0;
  }

  /** Every entry merging appends is the first entry of `es` with its key. */
  lemma {:induction false} MergeFreeFirstEntries(m: Entries, es: Entries)
    ensures AppendedFirstEntries(MergeFree(m, es), |m|, es)
    decreases |es|
  {
    if |es| > 0 {
      var n := |es| - 1;
      var ks, pre := Keys(es), es[..n];
      var m1 := MergeFree(m, pre);
      var r := MergeFree(m, es);
      MergeFreeFirstEntries(m, pre);
      FirstEntriesPrefix(m1, |m|, es, n);
      MergeFreeStep(m, es);
      if !Has(m1, es[n].0) {
        MergeFreeFresh(m, es);
        FirstPosUnique(ks, es[n].0, n);
        assert r == m1 + [es[n]];
      }
    }
  }

  /** First entries of a prefix of `es` are first entries of the whole. */
  lemma FirstEntriesPrefix(m: Entries, lo: nat, es: Entries, n: nat)
    requires n <= |es| && AppendedFirstEntries(m, lo, es[..n])
    ensures AppendedFirstEntries(m, lo, es)
  {
    var ks := Keys(es);
    assert Keys(es[..n]) == ks[..n];
    forall i | lo <= i < |m|
      ensures m[i].0 in ks && m[i] == es[FirstPos(ks, m[i].0)]
    {
      FirstPosPrefix(ks, n, m[i].0);
    }
  }

  /** Layer 3: every field still unmapped with a fuzzy match. */
  function FuzzyLayer(fields: seq<Field>, presets: seq<Preset>, m: Entries): (r: Entries)
    ensures |m| <= |r| && r[..|m|] == m
    ensures forall i :: |m| <= i < |r| ==> r[i].0 in FieldKeys(fields)
    ensures DistinctKeys(m) ==> DistinctKeys(r)
  {
    SweepGuarded(fields, m, FuzzyPick(presets));
    SweepNewKeys(fields, m, FuzzyPick(presets), true);
    SweepDistinct(fields, m, FuzzyPick(presets), true);
    Sweep(fields, m, FuzzyPick(presets), true)
  }

  /** Some field's index is not yet mapped. */
  predicate SomeUnfilled(fields: seq<Field>, m: Entries) {
    exists j :: 0 <= j < |fields| && !Has(m, KeyOf(fields[j]))
  }

  /** The oracle is consulted only while some field is unmapped. */
  function Consult(fields: seq<Field>, m: Entries, answer: seq<(string, string)>): (r: Entries)
    ensures |m| <= |r| && r[..|m|] == m
    ensures forall i :: |m| <= i < |r| ==> r[i] in Parsed(answer) && !Has(m, r[i].0)
    ensures SomeUnfilled(fields, m) ==>
              forall a :: 0 <= a < |answer| && !Has(m, ParseKey(answer[a].0)) && FirstAnswerForKey(answer, a) ==>
                (ParseKey(answer[a].0), answer[a].1) in r
    ensures DistinctKeys(m) ==> DistinctKeys(r)
    ensures !SomeUnfilled(fields, m) ==> r == m
  {
    if SomeUnfilled(fields, m) then AiLayer(m, answer) else m
  }

  /** The map a fill pass builds. With no presets or no fields the pass
      stops early. The oracle's answer is consulted only when a field is left
      after the dictionary layer; an oracle that is absent, unavailable or
      throws answers with no entries. */
  function Resolve(fields: seq<Field>, presets: seq<Preset>, answer: seq<(string, string)>): (r: Entries)
    ensures |presets| == 0 || |fields| == 0 ==> r == []
    ensures DistinctKeys(r)
  {
    if |presets| == 0 || |fields| == 0 then []
    else FuzzyLayer(fields, presets, Consult(fields, DictionaryLayer(fields, presets), answer))
  }

  /** The dictionary layer sets the matched fields' keys in field order. */
  lemma DictionaryLayerOrder(fields: seq<Field>, presets: seq<Preset>)
    requires DistinctIndices(fields)
    ensures AppendedInOrder(DictionaryLayer(fields, presets), 0, FieldKeys(fields))
  {
    SweepOrder(fields, [], DictionaryPick(presets), false);
  }

  /** The AI layer appends, in the answer's enumeration order, the first
      answer entry for each key that was free. */
  lemma AiLayerOrder(m: Entries, answer: seq<(string, string)>)
    ensures AppendedInOrder(AiLayer(m, answer), |m|, Keys(Parsed(answer)))
    ensures AppendedFirstEntries(AiLayer(m, answer), |m|, Parsed(answer))
  {
    MergeFreeOrder(m, Parsed(answer));
    MergeFreeFirstEntries(m, Parsed(answer));
  }

  /** Consulting the oracle appends in the answer's order, or appends nothing. */
  lemma ConsultOrder(fields: seq<Field>, m: Entries, answer: seq<(string, string)>)
    ensures AppendedInOrder(Consult(fields, m, answer), |m|, Keys(Parsed(answer)))
    ensures AppendedFirstEntries(Consult(fields, m, answer), |m|, Parsed(answer))
  {
    AiLayerOrder(m, answer);
  }

  /** The fuzzy layer appends the keys it sets in field order. */
  lemma FuzzyLayerOrder(fields: seq<Field>, presets: seq<Preset>, m: Entries)
    requires DistinctIndices(fields)
    ensures AppendedInOrder(FuzzyLayer(fields, presets, m), |m|, FieldKeys(fields))
  {
    SweepOrder(fields, m, FuzzyPick(presets), true);
  }

  /** The map the fill loop iterates is three runs: the dictionary's keys in
      field order, then the oracle's in answer order, then the fuzzy layer's
      in field order. */
  lemma ResolveOrder(fields: seq<Field>, presets: seq<Preset>, answer: seq<(string, string)>)
    requires |presets| > 0 && |fields| > 0 && DistinctIndices(fields)
    ensures var m1 := DictionaryLayer(fields, presets);
            var m2 := Consult(fields, m1, answer);
            var r := Resolve(fields, presets, answer);
            && |m1| <= |m2| <= |r| && r[..|m2|] == m2 && m2[..|m1|] == m1
            && AppendedInOrder(r[..|m1|], 0, FieldKeys(fields))
            && AppendedInOrder(r[..|m2|], |m1|, Keys(Parsed(answer)))
            && AppendedFirstEntries(r[..|m2|], |m1|, Parsed(answer))
            && AppendedInOrder(r, |m2|, FieldKeys(fields))
  {
    var m1 := DictionaryLayer(fields, presets);
    var m2 := Consult(fields, m1, answer);
    var r := Resolve(fields, presets, answer);
    assert r == FuzzyLayer(fields, presets, m2);
    DictionaryLayerOrder(fields, presets);
    ConsultOrder(fields, m1, answer);
    FuzzyLayerOrder(fields, presets, m2);
    PrefixChain(m1, m2, r);
  }

  /** The dictionary layer's entries open the map and are never overridden. */
  lemma DictionaryLayerKept(fields: seq<Field>, presets: seq<Preset>, answer: seq<(string, string)>)
    requires |presets| > 0 && |fields| > 0
    ensures var m1 := DictionaryLayer(fields, presets);
            var r := Resolve(fields, presets, answer);
            |m1| <= |r| && r[..|m1|] == m1
  {
    var m1 := DictionaryLayer(fields, presets);
    var m2 := Consult(fields, m1, answer);
    var r := Resolve(fields, presets, answer);
    assert r == FuzzyLayer(fields, presets, m2);
    PrefixChain(m1, m2, r);
  }

  /** A key that is no field's index can only come from the oracle: it is an
      answer entry whose key parseInt read as this number (or NaN). */
  lemma ForeignKeyFromOracle(fields: seq<Field>, presets: seq<Preset>, answer: seq<(string, string)>, i: nat)
    requires i < |Resolve(fields, presets, answer)|
    requires Resolve(fields, presets, answer)[i].0 !in FieldKeys(fields)
    ensures Resolve(fields, presets, answer)[i] in Parsed(answer)
  {
    var m1 := DictionaryLayer(fields, presets);
    var m2 := Consult(fields, m1, answer);
    var r := FuzzyLayer(fields, presets, m2);
    assert Resolve(fields, presets, answer) == r;
    ForeignInMiddle(m1, m2, r, FieldKeys(fields), Parsed(answer), i);
  }

  /** Of three runs where the outer two hold only keys of `ks`, an entry
      with another key comes from the middle run. */
  lemma ForeignInMiddle(m1: Entries, m2: Entries, r: Entries, ks: seq<Key>, es: Entries, i: nat)
    requires |m1| <= |m2| <= |r| && m2[..|m1|] == m1 && r[..|m2|] == m2
    requires forall j :: 0 <= j < |m1| ==> m1[j].0 in ks
    requires forall j :: |m1| <= j < |m2| ==> m2[j] in es
    requires forall j :: |m2| <= j < |r| ==> r[j].0 in ks
    requires i < |r| && r[i].0 !in ks
    ensures r[i] in es
  {
    assert r[i] == m2[i];
    assert forall q :: 0 <= q < |m1| ==> m2[q] == m1[q];
  }

  /** Without an answer from the oracle the map is the dictionary layer
      followed by the fuzzy layer: the oracle failing takes nothing else with it. */
  lemma ResolveWithoutOracle(fields: seq<Field>, presets: seq<Preset>)
    requires |presets| > 0 && |fields| > 0
    ensures Resolve(fields, presets, []) == FuzzyLayer(fields, presets, DictionaryLayer(fields, presets))
  {
  }

  /** A field whose label equals a preset's normalised label gets that
      preset's value (the first such preset), whatever the oracle answers. */
  lemma ExactLabelWins(fields: seq<Field>, presets: seq<Preset>, answer: seq<(string, string)>, j: nat)
    requires DistinctIndices(fields)
    requires j < |fields|
    requires !NoneMatch(presets, ExactLabel(fields[j].labelText))
    ensures var i := FindFirst(presets, ExactLabel(fields[j].labelText)).value;
            (KeyOf(fields[j]), presets[i].value) in Resolve(fields, presets, answer)
  {
    var m1 := DictionaryLayer(fields, presets);
    var r := Resolve(fields, presets, answer);
    var k := KeyOf(fields[j]);
    var i := FindFirst(presets, ExactLabel(fields[j].labelText)).value;
    var x := DictionaryMatch(fields[j].labelText, presets);
    FirstUnique(presets, ExactLabel(fields[j].labelText), i, x.value);
    assert DictionaryPick(presets)(fields[j]) == Some(presets[i].value);
    SweepValue(fields, [], DictionaryPick(presets), false, j);
    DictionaryLayerKept(fields, presets, answer);
    PrefixKeeps(m1, r);
  }

  /** An answer entry that is the first for its key is in the final map when
      the oracle was consulted (a field was left after the dictionary layer)
      and the dictionary layer had not taken that key. */
  lemma FreeAnswerEntryKept(fields: seq<Field>, presets: seq<Preset>, answer: seq<(string, string)>, a: nat)
    requires |presets| > 0 && |fields| > 0
    requires a < |answer| && FirstAnswerForKey(answer, a)
    requires SomeUnfilled(fields, DictionaryLayer(fields, presets))
    requires !Has(DictionaryLayer(fields, presets), ParseKey(answer[a].0))
    ensures (ParseKey(answer[a].0), answer[a].1) in Resolve(fields, presets, answer)
  {
    var m2 := Consult(fields, DictionaryLayer(fields, presets), answer);
    var r := Resolve(fields, presets, answer);
    assert r == FuzzyLayer(fields, presets, m2);
    PrefixKeeps(m2, r);
  }

  /** After the dictionary and oracle layers a field is still unmapped when
      the dictionary rule does not match it and no answer key reads as its index. */
  lemma UnmatchedFieldStaysFree(fields: seq<Field>, presets: seq<Preset>, answer: seq<(string, string)>, j: nat)
    requires DistinctIndices(fields)
    requires j < |fields| && DictionaryMatch(fields[j].labelText, presets).None?
    requires forall a :: 0 <= a < |answer| ==> ParseKey(answer[a].0) != KeyOf(fields[j])
    ensures !Has(Consult(fields, DictionaryLayer(fields, presets), answer), KeyOf(fields[j]))
  {
    var m1 := DictionaryLayer(fields, presets);
    assert DictionaryPick(presets)(fields[j]).None?;
    SweepSkips(fields, [], DictionaryPick(presets), false, j);
    ConsultKeepsFree(fields, m1, answer, KeyOf(fields[j]));
  }

  /** The oracle sets only keys its answer names. */
  lemma ConsultKeepsFree(fields: seq<Field>, m: Entries, answer: seq<(string, string)>, k: Key)
    requires !Has(m, k)
    requires forall a :: 0 <= a < |answer| ==> ParseKey(answer[a].0) != k
    ensures !Has(Consult(fields, m, answer), k)
  {
    var r := Consult(fields, m, answer);
    forall i | 0 <= i < |r|
      ensures r[i].0 != k
    {
      if i < |m| {
        assert r[i] == m[i];
      } else {
        var a :| 0 <= a < |answer| && Parsed(answer)[a] == r[i];
      }
    }
  }

  /** A field that only the fuzzy rule matches, and that the oracle's answer
      does not name, gets the value of the first preset that fuzzily fits it. */
  lemma FuzzyOnlyValue(fields: seq<Field>, presets: seq<Preset>, answer: seq<(string, string)>, j: nat)
    requires DistinctIndices(fields)
    requires j < |fields| && DictionaryMatch(fields[j].labelText, presets).None?
    requires FuzzyMatch(fields[j].labelText, presets).Some?
    requires forall a :: 0 <= a < |answer| ==> ParseKey(answer[a].0) != KeyOf(fields[j])
    ensures FuzzyValue(presets, fields[j]).Some?
    ensures (KeyOf(fields[j]), FuzzyValue(presets, fields[j]).value) in Resolve(fields, presets, answer)
  {
    var m2 := Consult(fields, DictionaryLayer(fields, presets), answer);
    UnmatchedFieldStaysFree(fields, presets, answer, j);
    assert FuzzyPick(presets)(fields[j]).Some?;
    SweepValue(fields, m2, FuzzyPick(presets), true, j);
    assert Resolve(fields, presets, answer) == FuzzyLayer(fields, presets, m2);
  }

  /** A field that the dictionary or the fuzzy rule can match is always mapped. */
  lemma MatchedFieldIsMapped(fields: seq<Field>, presets: seq<Preset>, answer: seq<(string, string)>, j: nat)
    requires j < |fields|
    requires DictionaryMatch(fields[j].labelText, presets).Some? || FuzzyMatch(fields[j].labelText, presets).Some?
    ensures Has(Resolve(fields, presets, answer), KeyOf(fields[j]))
  {
    var m1 := DictionaryLayer(fields, presets);
    var m2 := Consult(fields, m1, answer);
    var r := Resolve(fields, presets, answer);
    var k := KeyOf(fields[j]);
    assert |presets| > 0 && |fields| > 0;
    assert r == FuzzyLayer(fields, presets, m2);
    if DictionaryMatch(fields[j].labelText, presets).Some? {
      SweepCovers(fields, [], DictionaryPick(presets), false, j);
      DictionaryLayerKept(fields, presets, answer);
      PrefixKeeps(m1, r);
    } else if Has(m2, k) {
      PrefixKeeps(m2, r);
    } else {
      SweepCovers(fields, m2, FuzzyPick(presets), true, j);
    }
  }

  // ---------------------------------------------------------------- the fill loop

  /** One iteration of the fill loop: the field read at the key's position and the value. */
  datatype Step = Step(target: Field, value: string)

  /** The steps the loop completes and whether it stopped on a TypeError. */
  datatype Plan = Plan(steps: seq<Step>, aborted: bool)

  /** `fields[key]` is a field only for an integer key within bounds; NaN,
      negative and too-large keys read undefined. */
  function Unresolvable(count: nat): ((Key, string)) -> bool {
    (e: (Key, string)) => !(e.0.Idx? && 0 <= e.0.n < count)
  }

  /** `for (const [index, value] of mapping)`: each key is used as a position
      into the detected fields, and the first key that reads undefined throws
      and ends the pass. */
  function FillPlan(m: Entries, fields: seq<Field>): (p: Plan)
    ensures |p.steps| <= |m|
    ensures forall i :: 0 <= i < |p.steps| ==>
              m[i].0.Idx? && 0 <= m[i].0.n < |fields| && p.steps[i] == Step(fields[m[i].0.n], m[i].1)
    ensures p.aborted ==> IsFirst(m, Unresolvable(|fields|), |p.steps|)
    ensures !p.aborted ==> |p.steps| == |m| && NoneMatch(m, Unresolvable(|fields|))
  {
    var stop := FindFirst(m, Unresolvable(|fields|));
    var n := if stop.Some? then stop.value else |m|;
    Plan(seq(n, i requires 0 <= i < n => Step(fields[m[i].0.n], m[i].1)), stop.Some?)
  }

  /** When every field's index is its position, each map entry set by the
      dictionary or fuzzy layer fills the field it was resolved for. */
  lemma AlignedStepsHitTheirField(m: Entries, fields: seq<Field>, i: nat, j: nat)
    requires forall k :: 0 <= k < |fields| ==> fields[k].index == k
    requires i < |FillPlan(m, fields).steps| && j < |fields| && m[i].0 == KeyOf(fields[j])
    ensures FillPlan(m, fields).steps[i].target == fields[j]
  {
  }

  /** When a field's index is not its position (an earlier container or
      element produced no field), the value resolved for it is written to a
      different field, or the pass stops with a TypeError. */
  lemma MisalignedStepMissesField(m: Entries, fields: seq<Field>, i: nat, j: nat)
    requires forall a, b :: 0 <= a < b < |fields| ==> fields[a].index < fields[b].index
    requires j < |fields| && fields[j].index != j
    requires i < |m| && m[i].0 == KeyOf(fields[j])
    ensures var p := FillPlan(m, fields);
            i < |p.steps| ==> p.steps[i].target != fields[j]
    ensures fields[j].index >= |fields| ==> FillPlan(m, fields).aborted
  {
    IndexAtLeastPosition(fields);
    var p := FillPlan(m, fields);
    if fields[j].index >= |fields| {
      assert Unresolvable(|fields|)(m[i]);
      assert |p.steps| <= i;
    }
  }

  /** An entry whose key parseInt could not read (the oracle answered with a
      label instead of an index, say) stops the loop at or before it. */
  lemma NaNKeyStopsFill(m: Entries, fields: seq<Field>, i: nat)
    requires i < |m| && m[i].0 == NaN
    ensures FillPlan(m, fields).aborted && |FillPlan(m, fields).steps| <= i
  {
    FindFirstAtMost(m, Unresolvable(|fields|), i);
  }
}

=== FILE: scenarios.dfy ===
/** Whole-pass consequences on a small concrete page. */
module Scenarios {
  import opened Text
  import opened Search
  import opened Matching
  import opened Fields
  import opened Mapping
  import opened Resolution
  import opened Widgets

  /** A question block with no heading, then a block headed "Nama". */
  const Page: seq<Container> := [Container(None, false, [], []), Container(Some("Nama"), false, [], [])]

  const Presets: seq<Preset> := [Preset("Nama", "Budi")]

  /** The only field detected, carrying its block's position 1. */
  const NamaField: Field := Field(1, "Nama", "nama", [], "")

  lemma LowerNama()
    ensures Lower("Nama") == "nama"
  {
    var l := Lower("Nama");
    assert "Nama"[0] == 'N' && "Nama"[1] == 'a' && "Nama"[2] == 'm' && "Nama"[3] == 'a';
    assert l[0] as int == 'n' as int;
    assert l[0] == 'n' && l[1] == 'a' && l[2] == 'm' && l[3] == 'a';
  }

  /** The "Nama" block builds the "Nama" field. */
  lemma NamaBlock()
    ensures StructuredBuild(Page[1]) == Some(NamaField.(index := 0))
  {
    LowerNama();
    TrimKeeps("Nama");
    TrimKeeps("nama");
    var c := Container(Some("Nama"), false, [], []);
    assert Page[1] == c;
    assert |StructuredBuild(c).value.options| == 0;
  }

  /** The headingless block produces no field but keeps position 0. */
  lemma PageFields()
    ensures StructuredFields(Page) == [NamaField]
  {
    NamaBlock();
    assert Page[..1] == [Page[0]] && [Page[0]][..0] == [];
    assert Extract(Page[..1], StructuredBuild) == [];
  }

  /** The dictionary layer maps key 1: "nama" is the preset's label verbatim. */
  lemma PageDictionary()
    ensures DictionaryLayer([NamaField], Presets) == [(Idx(1), "Budi")]
  {
    TrimKeeps("nama");
    LowerNama();
    assert ExactLabel("nama")(Presets[0]);
    assert DictionaryPick(Presets)(NamaField) == Some("Budi");
    assert [NamaField][..0] == [];
    assert Sweep([], [], DictionaryPick(Presets), false) == [];
    assert Put([], Idx(1), "Budi") == [(Idx(1), "Budi")];
    assert Visit([], NamaField, DictionaryPick(Presets), false) == [(Idx(1), "Budi")];
  }

  /** No field is left for the other layers, so the map is the dictionary's. */
  lemma PageMapping(answer: seq<(string, string)>)
    ensures Resolve([NamaField], Presets, answer) == [(Idx(1), "Budi")]
  {
    var fields := [NamaField];
    PageDictionary();
    var m1 := DictionaryLayer(fields, Presets);
    assert m1[0].0 == KeyOf(NamaField);
    assert !SomeUnfilled(fields, m1);
    assert Consult(fields, m1, answer) == m1;
    assert fields[..0] == [];
    assert Sweep(fields[..0], m1, FuzzyPick(Presets), true) == m1;
    assert FuzzyLayer(fields, Presets, m1) == m1;
  }

  /** Key 1 reads past the one detected field: the loop throws before filling. */
  lemma PagePlan()
    ensures FillPlan([(Idx(1), "Budi")], [NamaField]) == Plan([], true)
  {
    assert Unresolvable(1)((Idx(1), "Budi"));
  }

  /** Put together: the "Nama" question, which the dictionary matches
      exactly, is left empty and the pass ends in a TypeError, whatever the
      oracle answers. */
  lemma HeadinglessBlockLosesFill(answer: seq<(string, string)>)
    ensures var fields := StructuredFields(Page);
            FillPlan(Resolve(fields, Presets, answer), fields) == Plan([], true)
  {
    PageFields();
    PageMapping(answer);
    PagePlan();
  }

  /** A generic page: an input with placeholder "Nama", then an unlabelled
      input whose id holds a double quote, so that its `label[for]` selector
      is invalid. */
  const NamaInput: Element :=
    Element(Control(InputTag, None, None, Some("Nama"), ""), Answered(None), None, None, None, [], None, [], "", false)
  const QuotedIdInput: Element :=
    Element(Control(InputTag, None, None, None, ""), Invalid, None, None, Some("email"), [], None, [], "", false)

  /** The first input would be a field, but the second one's query throws
      first: detection aborts and the pass fills nothing. */
  lemma QuotedIdEndsDetection()
    ensures GenericFields([NamaInput, QuotedIdInput]) != []
    ensures GenericDetect([NamaInput, QuotedIdInput]) == Aborted
  {
    var es := [NamaInput, QuotedIdInput];
    assert ListedElements(es) == es by {
      ListedSnoc([NamaInput], QuotedIdInput);
      ListedSnoc([], NamaInput);
      assert [] + [NamaInput] == [NamaInput];
    }
    TrimKeeps("Nama");
    assert IsFirst(LabelSources(NamaInput), Truthy, 1);
    GenericComplete(es, 0);
    assert LabelQueryThrows(ListedElements(es)[1]);
  }

  /** A heading text met again further out keeps the place of its inner
      occurrence: "Details" at levels 0 and 2 around "Contact" at level 1
      gives the context "Contact > Details", so the outer "Details" does not
      come first. */
  lemma RepeatedHeadingKeepsInnerPlace()
    ensures Context([Some("Details"), Some("Contact"), Some("Details")]) == ["Contact", "Details"]
  {
    RepeatedHeadingSeen();
    var seen := ["Details", "Contact", "Details"];
    assert seen[..2] == ["Details", "Contact"] && seen[..1] == ["Details"] && seen[..0] == [];
    assert Outward(seen[..1]) == ["Details"];
    assert Outward(seen[..2]) == ["Contact", "Details"];
  }

  lemma RepeatedHeadingSeen()
    ensures Seen([Some("Details"), Some("Contact"), Some("Details")]) == ["Details", "Contact", "Details"]
  {
    var hs := [Some("Details"), Some("Contact"), Some("Details")];
    assert hs[..3] == hs;
    RepeatedHeadingPresent();
  }

  lemma RepeatedHeadingPresent()
    ensures Present([Some("Details"), Some("Contact"), Some("Details")]) == ["Details", "Contact", "Details"]
  {
    TrimKeeps("Details");
    TrimKeeps("Contact");
    var hs := [Some("Details"), Some("Contact"), Some("Details")];
    PresentSnoc([], hs[0]);
    PresentSnoc([hs[0]], hs[1]);
    PresentSnoc([hs[0], hs[1]], hs[2]);
    assert [] + [hs[0]] == [hs[0]] && [hs[0]] + [hs[1]] == [hs[0], hs[1]] && [hs[0], hs[1]] + [hs[2]] == hs;
  }

  /** A gender question with the radios "male" and "female", neither checked. */
  const GenderRadios: seq<Choice> := [Choice(RadioRole, Some("male"), "", None), Choice(RadioRole, Some("female"), "", None)]

  lemma LowerWordKept(w: string)
    requires forall k :: 0 <= k < |w| ==> 'a' <= w[k] <= 'z'
    ensures Normalize(w) == w
  {
    assert Lower(w) == w;
    TrimKeeps(w);
  }

  /** The value "male" fits both radios, since "male" is inside "female";
      both are clicked and the later click wins, so the form ends up
      answering "female". Filling again clicks "male" once more: a radio
      fill never settles. */
  lemma MaleValueEndsOnFemale()
    ensures !IsChecked(AfterOptions(GenderRadios, "male")[0])
    ensures IsChecked(AfterOptions(GenderRadios, "male")[1])
    ensures FillOptions(AfterOptions(GenderRadios, "male"), "male")[0]
  {
    GenderFits();
    assert GenderRadios == [GenderRadios[0], GenderRadios[1]];
    BothFitLaterWins(GenderRadios[0], GenderRadios[1], "male");
  }

  /** Both radios fit "male", the second by inclusion. */
  lemma GenderFits()
    ensures Normalize("male") == "male"
    ensures ChoiceFits(ChoiceLabel(GenderRadios[0]), "male") && ChoiceFits(ChoiceLabel(GenderRadios[1]), "male")
  {
    LowerWordKept("male");
    LowerWordKept("female");
    assert ChoiceLabel(GenderRadios[0]) == "male";
    assert ChoiceLabel(GenderRadios[1]) == "female";
    MaleValueClicksFemale();
  }
}

=== FILE: search.dfy ===
/** First-match-wins search, the shape of every `Array.prototype.find` the
    form filler performs, and the optional result it returns. */
module Search {

  /** A found value, or nothing (JavaScript's undefined / null). */
  datatype Option<+T> = None | Some(value: T)

  /** `i` is the first position of `s` whose element satisfies `p`. */
  ghost predicate IsFirst<T>(s: seq<T>, p: T -> bool, i: int) {
    0 <= i < |s| && p(s[i]) && forall j :: 0 <= j < i ==> !p(s[j])
  }

  /** No element of `s` satisfies `p`. */
  ghost predicate NoneMatch<T>(s: seq<T>, p: T -> bool) {
    forall j :: 0 <= j < |s| ==> !p(s[j])
  }

  /** Position of the first element satisfying `p`, if any. */
  function FindFirst<T>(s: seq<T>, p: T -> bool): (r: Option<nat>)
    ensures r.Some? ==> IsFirst(s, p, r.value)
    ensures r.None? ==> NoneMatch(s, p)
    decreases |s|
  {
    if |s| == 0 then None
    else if p(s[0]) then Some(0)
    else match FindFirst(s[1..], p)
      case None => None
      case Some(i) => Some(i + 1)
  }

  /** The first match is unique: the search result is determined by its contract. */
  lemma FirstUnique<T>(s: seq<T>, p: T -> bool, i: int, j: int)
    requires IsFirst(s, p, i) && IsFirst(s, p, j)
    ensures i == j
  {
  }

  /** Any satisfying position bounds the search result from above. */
  lemma FindFirstAtMost<T>(s: seq<T>, p: T -> bool, k: int)
    requires 0 <= k < |s| && p(s[k])
    ensures FindFirst(s, p).Some? && FindFirst(s, p).value <= k
  {
  }

  /** Position of the first occurrence of `x`. */
  function FirstPos<T(==)>(s: seq<T>, x: T): (r: nat)
    requires x in s
    ensures r < |s| && s[r] == x && forall b :: 0 <= b < r ==> s[b] != x
    decreases |s|
  {
    if s[0] == x then 0 else 1 + FirstPos(s[1..], x)
  }

  /** Appending leaves the first position of a present element alone. */
  lemma {:induction false} FirstPosExtend<T>(s: seq<T>, y: T, x: T)
    requires x in s
    ensures FirstPos(s + [y], x) == FirstPos(s, x)
    decreases |s|
  {
    if s[0] != x {
      assert s == [s[0]] + s[1..];
      assert (s + [y])[1..] == s[1..] + [y];
      FirstPosExtend(s[1..], y, x);
    }
  }

  /** An appended element that was absent is first met at the end. */
  lemma {:induction false} FirstPosNew<T>(s: seq<T>, y: T)
    requires y !in s
    ensures FirstPos(s + [y], y) == |s|
    decreases |s|
  {
    if |s| > 0 {
      assert (s + [y])[1..] == s[1..] + [y];
      FirstPosNew(s[1..], y);
    }
  }

  /** The first position is determined by its contract. */
  lemma FirstPosUnique<T>(s: seq<T>, x: T, p: nat)
    requires p < |s| && s[p] == x && x !in s[..p]
    ensures FirstPos(s, x) == p
  {
  }

  /** An element of a prefix has the same first position in the whole. */
  lemma FirstPosPrefix<T>(s: seq<T>, n: nat, x: T)
    requires n <= |s| && x in s[..n]
    ensures x in s && FirstPos(s, x) == FirstPos(s[..n], x)
  {
    var p := FirstPos(s[..n], x);
    assert s[..n][..p] == s[..p];
    FirstPosUnique(s, x, p);
  }
}

=== FILE: text.dfy ===
/** String primitives the form filler relies on: JavaScript's toLowerCase,
    trim, includes, split on white space, split on the date separators, join
    and padStart, restricted to ASCII (see README "Left out").
    Searches recurse on a position inside a fixed string rather than on
    ever-shorter slices. */
module Text {

  /** White space as trim() and the regular-expression class \s see it (ASCII part). */
  predicate IsSpace(c: char) {
    c == ' ' || c == '\t' || c == '\n' || c == '\r' || c == '\U{000B}' || c == '\U{000C}'
  }

  ghost predicate NoSpace(s: string) {
    forall k :: 0 <= k < |s| ==> !IsSpace(s[k])
  }

  ghost predicate AllSpace(s: string) {
    forall k :: 0 <= k < |s| ==> IsSpace(s[k])
  }

  // ---------------------------------------------------------------- case

  function LowerChar(c: char): char {
    if 'A' <= c <= 'Z' then (c as int + 32) as char else c
  }

  /** toLowerCase over ASCII: every upper-case letter is replaced, nothing else moves. */
  function Lower(s: string): (r: string)
    ensures |r| == |s|
    ensures forall k :: 0 <= k < |r| ==> !('A' <= r[k] <= 'Z')
    ensures forall k :: 0 <= k < |s| && !('A' <= s[k] <= 'Z') ==> r[k] == s[k]
    ensures forall k :: 0 <= k < |s| && 'A' <= s[k] <= 'Z' ==> r[k] as int == s[k] as int + 32
  {
    seq(|s|, k requires 0 <= k < |s| => LowerChar(s[k]))
  }

  /** Lower-casing keeps every occurrence, lower-cased: an upper-case
      needle found in `s` is found lower-cased in Lower(s). */
  lemma LowerKeepsOccurrence(s: string, sub: string, i: int)
    requires OccursAt(s, sub, i)
    ensures OccursAt(Lower(s), Lower(sub), i)
  {
    var l := Lower(s)[i..i + |sub|];
    forall k | 0 <= k < |sub|
      ensures l[k] == Lower(sub)[k]
    {
      assert s[i + k] == sub[k];
    }
  }

  // ---------------------------------------------------------------- scanning

  /** First white-space position at or after `i`, or |s|. */
  function NextSpace(s: string, i: nat): (r: nat)
    requires i <= |s|
    ensures i <= r <= |s|
    ensures r < |s| ==> IsSpace(s[r])
    ensures forall k :: i <= k < r ==> !IsSpace(s[k])
    decreases |s| - i
  {
    if i == |s| || IsSpace(s[i]) then i else NextSpace(s, i + 1)
  }

  /** First non-white-space position at or after `i`, or |s|. */
  function NextNonSpace(s: string, i: nat): (r: nat)
    requires i <= |s|
    ensures i <= r <= |s|
    ensures r < |s| ==> !IsSpace(s[r])
    ensures forall k :: i <= k < r ==> IsSpace(s[k])
    decreases |s| - i
  {
    if i < |s| && IsSpace(s[i]) then NextNonSpace(s, i + 1) else i
  }

  /** End of `s[lo..j]` once trailing white space is dropped. */
  function ContentEnd(s: string, lo: nat, j: nat): (r: nat)
    requires lo <= j <= |s|
    ensures lo <= r <= j
    ensures r > lo ==> !IsSpace(s[r - 1])
    ensures forall k :: r <= k < j ==> IsSpace(s[k])
    decreases j
  {
    if j > lo && IsSpace(s[j - 1]) then ContentEnd(s, lo, j - 1) else j
  }

  // ---------------------------------------------------------------- trim

  /** trim(): the infix of `s` left after white space is removed from both
      ends; it starts where the leading white space stops. */
  function Trim(s: string): (r: string)
    ensures r == [] || (!IsSpace(r[0]) && !IsSpace(r[|r| - 1]))
    ensures var a := NextNonSpace(s, 0);
            && a + |r| <= |s| && s[a..a + |r|] == r
            && AllSpace(s[..a]) && AllSpace(s[a + |r|..])
  {
    var a := NextNonSpace(s, 0);
    var b := ContentEnd(s, a, |s|);
    assert a < b ==> s[a..b][0] == s[a];
    assert a < b ==> s[a..b][b - a - 1] == s[b - 1];
    s[a..b]
  }

  /** Trimming is idempotent: a trimmed string has nothing left to strip. */
  lemma TrimIdempotent(s: string)
    ensures Trim(Trim(s)) == Trim(s)
  {
    TrimKeeps(Trim(s));
  }

  /** A string that neither starts nor ends with white space is its own trim. */
  lemma TrimKeeps(t: string)
    requires t == [] || (!IsSpace(t[0]) && !IsSpace(t[|t| - 1]))
    ensures Trim(t) == t
  {
    assert NextNonSpace(t, 0) == 0;
    assert ContentEnd(t, 0, |t|) == |t|;
    assert t[0..|t|] == t;
  }

  // ---------------------------------------------------------------- includes

  /** `sub` occurs in `s` starting at `i`. */
  ghost predicate OccursAt(s: string, sub: string, i: int) {
    0 <= i && i + |sub| <= |s| && s[i..i + |sub|] == sub
  }

  /** `sub` occurs in `s` at or after position `i`. */
  predicate ContainsFrom(s: string, sub: string, i: nat)
    decreases |s| - i
  {
    i + |sub| <= |s| && (s[i..i + |sub|] == sub || ContainsFrom(s, sub, i + 1))
  }

  /** String.prototype.includes. */
  predicate Contains(s: string, sub: string) {
    ContainsFrom(s, sub, 0)
  }

  lemma {:induction false} ContainsFromIff(s: string, sub: string, i: nat)
    ensures ContainsFrom(s, sub, i) <==> exists j :: i <= j && OccursAt(s, sub, j)
    decreases |s| - i
  {
    if i + |sub| <= |s| {
      ContainsFromIff(s, sub, i + 1);
      if s[i..i + |sub|] == sub {
        assert OccursAt(s, sub, i);
      } else {
        assert forall j :: i <= j && OccursAt(s, sub, j) ==> i + 1 <= j;
      }
    }
  }

  /** The executable search agrees with the positional definition of an occurrence. */
  lemma ContainsIff(s: string, sub: string)
    ensures Contains(s, sub) <==> exists i :: OccursAt(s, sub, i)
  {
    ContainsFromIff(s, sub, 0);
  }

  /** The empty string is included in every string, and every string in itself. */
  lemma ContainsTrivial(s: string)
    ensures Contains(s, "") && Contains(s, s)
  {
    assert s[0..0] == "";
    assert s[0..|s|] == s;
  }

  // ---------------------------------------------------------------- split(/\s+/)

  /** Tokens of `s` from position `a`, which starts a token. */
  function TokensFrom(s: string, a: nat): (r: seq<string>)
    requires a <= |s|
    ensures |r| >= 1
    decreases |s| - a
  {
    var i := NextSpace(s, a);
    if i == |s| then [s[a..]]
    else [s[a..i]] + TokensFrom(s, NextNonSpace(s, i))
  }

  /** s.split(/\s+/): pieces between maximal runs of white space; a leading or
      trailing run yields an empty piece, and "" splits into [""]. */
  function Tokens(s: string): seq<string> {
    TokensFrom(s, 0)
  }

  /** `t` stands in `s` at position `i` as a whole token: it holds no white
      space and is bounded by white space or the ends of `s`. */
  ghost predicate TokenAt(s: string, t: string, i: int) {
    && OccursAt(s, t, i)
    && NoSpace(t)
    && (i == 0 || IsSpace(s[i - 1]))
    && (i + |t| == |s| || IsSpace(s[i + |t|]))
  }

  lemma {:induction false} TokensFromSound(s: string, a: nat, t: string) returns (k: int)
    requires a <= |s| && (a == 0 || IsSpace(s[a - 1]))
    requires t in TokensFrom(s, a) && t != ""
    ensures a <= k && TokenAt(s, t, k)
    decreases |s| - a
  {
    var i := NextSpace(s, a);
    if i == |s| || t == s[a..i] {
      assert t == s[a..i];
      assert forall m :: 0 <= m < |t| ==> t[m] == s[a + m];
      k := a;
    } else {
      var b := NextNonSpace(s, i);
      assert IsSpace(s[b - 1]);
      k := TokensFromSound(s, b, t);
    }
  }

  lemma {:induction false} TokensFromComplete(s: string, a: nat, t: string, k: int)
    requires a <= k && TokenAt(s, t, k) && t != ""
    requires a == 0 || IsSpace(s[a - 1])
    ensures t in TokensFrom(s, a)
    decreases |s| - a
  {
    var i := NextSpace(s, a);
    assert forall m :: 0 <= m < |t| ==> s[k + m] == t[m];
    assert !IsSpace(t[0]) && s[k] == t[0];
    if k == a {
      assert forall m :: a <= m < a + |t| ==> !IsSpace(s[m]) by {
        forall m | a <= m < a + |t|
          ensures !IsSpace(s[m])
        {
          assert s[m] == t[m - a];
        }
      }
      assert i == a + |t|;
      assert s[a..i] == t;
      assert i == |s| ==> s[a..] == s[a..i];
    } else {
      assert IsSpace(s[k - 1]);
      assert i <= k - 1;
      var b := NextNonSpace(s, i);
      assert b <= k;
      TokensFromComplete(s, b, t, k);
    }
  }

  /** Every whole token of `s` is one of its white-space-split tokens. */
  lemma TokensComplete(s: string, t: string, k: int)
    requires TokenAt(s, t, k) && t != ""
    ensures t in Tokens(s)
  {
    TokensFromComplete(s, 0, t, k);
  }

  /** A non-empty string is one of the white-space-split tokens of `s` exactly
      when it occurs in `s` as a whole token. */
  lemma TokensCharacterized(s: string, t: string)
    requires t != ""
    ensures t in Tokens(s) <==> exists i :: TokenAt(s, t, i)
  {
    if t in Tokens(s) {
      var k := TokensFromSound(s, 0, t);
    }
    if exists i :: TokenAt(s, t, i) {
      var i :| TokenAt(s, t, i);
      TokensComplete(s, t, i);
    }
  }

  /** A string without white space is its own single token. */
  lemma TokensOfNoSpace(s: string)
    requires NoSpace(s)
    ensures Tokens(s) == [s]
  {
    assert NextSpace(s, 0) == |s|;
    assert s[0..] == s;
  }

  // ---------------------------------------------------------------- split(/[-/.]/)

  /** The separators a date value may use. */
  predicate IsDateSep(c: char) {
    c == '-' || c == '/' || c == '.'
  }

  /** s.split(/[-/.]/): cut at every separator; adjacent separators give empty
      pieces and no piece holds a separator. */
  function SplitDate(s: string): (r: seq<string>)
    ensures |r| >= 1
    ensures forall n :: 0 <= n < |r| ==> forall k :: 0 <= k < |r[n]| ==> !IsDateSep(r[n][k])
    decreases |s|
  {
    if |s| == 0 then [""]
    else
      var rest := SplitDate(s[1..]);
      if IsDateSep(s[0]) then [""] + rest
      else [[s[0]] + rest[0]] + rest[1..]
  }

  ghost predicate NoDateSep(s: string) {
    forall k :: 0 <= k < |s| ==> !IsDateSep(s[k])
  }

  /** A string without separators is a single piece. */
  lemma {:induction false} SplitDateWhole(s: string)
    requires NoDateSep(s)
    ensures SplitDate(s) == [s]
    decreases |s|
  {
    if |s| > 0 {
      SplitDateWhole(s[1..]);
      assert [s[0]] + s[1..] == s;
    }
  }

  /** A separator-free piece followed by a separator is cut off whole. */
  lemma {:induction false} SplitDatePiece(a: string, c: char, b: string)
    requires NoDateSep(a) && IsDateSep(c)
    ensures SplitDate(a + [c] + b) == [a] + SplitDate(b)
    decreases |a|
  {
    var s := a + [c] + b;
    if |a| == 0 {
      assert s[1..] == b;
    } else {
      assert s[1..] == a[1..] + [c] + b;
      SplitDatePiece(a[1..], c, b);
      assert [s[0]] + a[1..] == a;
    }
  }

  /** `s` with every separator replaced by `c`. */
  function ReplaceDateSeps(s: string, c: char): (r: string)
    ensures |r| == |s|
    decreases |s|
  {
    if |s| == 0 then "" else [if IsDateSep(s[0]) then c else s[0]] + ReplaceDateSeps(s[1..], c)
  }

  /** Splitting and re-joining with `c` gives back `s` with its separators
      normalised to `c`: the split loses nothing but which separator was used. */
  lemma {:induction false} SplitJoin(s: string, c: char)
    ensures Join(SplitDate(s), [c]) == ReplaceDateSeps(s, c)
    decreases |s|
  {
    if |s| > 0 {
      var rest := SplitDate(s[1..]);
      SplitJoin(s[1..], c);
      var r := SplitDate(s);
      if IsDateSep(s[0]) {
        assert r == [""] + rest;
        assert r[1..] == rest;
        JoinFront(r, [c]);
      } else {
        assert r == [[s[0]] + rest[0]] + rest[1..];
        JoinPrepend([s[0]], rest, [c]);
      }
    }
  }

  // ---------------------------------------------------------------- join(' > ')

  /** Array.prototype.join: the parts with `sep` between neighbours. */
  function Join(parts: seq<string>, sep: string): (r: string)
    ensures |parts| == 0 ==> r == ""
    ensures |parts| == 1 ==> r == parts[0]
    decreases |parts|
  {
    if |parts| == 0 then ""
    else if |parts| == 1 then parts[0]
    else parts[0] + sep + Join(parts[1..], sep)
  }

  /** A join starts with the first part and ends with the last. */
  lemma {:induction false} JoinEnds(parts: seq<string>, sep: string)
    requires |parts| > 0
    ensures var r := Join(parts, sep); |parts[0]| <= |r| && r[..|parts[0]|] == parts[0]
    ensures var r, l := Join(parts, sep), parts[|parts| - 1]; |l| <= |r| && r[|r| - |l|..] == l
    decreases |parts|
  {
    if |parts| > 1 {
      JoinEnds(parts[1..], sep);
      var t := Join(parts[1..], sep);
      var l := parts[|parts| - 1];
      assert parts[1..][|parts| - 2] == l;
      assert Join(parts, sep) == parts[0] + sep + t;
      assert t[|t| - |l|..] == l;
      assert (parts[0] + sep + t)[|parts[0] + sep + t| - |l|..] == t[|t| - |l|..];
    }
  }

  /** One more part at the end comes after one more separator. */
  lemma {:induction false} JoinSnoc(parts: seq<string>, x: string, sep: string)
    requires |parts| > 0
    ensures Join(parts + [x], sep) == Join(parts, sep) + sep + x
    decreases |parts|
  {
    var ps := parts + [x];
    assert ps[1..] == parts[1..] + [x];
    if |parts| > 1 {
      JoinSnoc(parts[1..], x, sep);
      assert Join(ps, sep) == parts[0] + sep + (Join(parts[1..], sep) + sep + x);
    }
  }

  /** Text put before the first part comes out in front of the join. */
  lemma JoinPrepend(x: string, parts: seq<string>, sep: string)
    requires |parts| > 0
    ensures Join([x + parts[0]] + parts[1..], sep) == x + Join(parts, sep)
  {
    var ps := [x + parts[0]] + parts[1..];
    assert ps[1..] == parts[1..];
    if |parts| > 1 {
      assert Join(ps, sep) == x + parts[0] + sep + Join(parts[1..], sep);
    }
  }

  /** Joining peels off the first part and one separator. */
  lemma JoinFront(parts: seq<string>, sep: string)
    requires |parts| > 0
    ensures Join(parts, sep) == if |parts| == 1 then parts[0] else parts[0] + sep + Join(parts[1..], sep)
  {
  }

  // ---------------------------------------------------------------- padStart(2, '0')

  /** padStart(2, '0'): strings shorter than two characters get leading zeros. */
  function Pad2(s: string): (r: string)
    ensures |r| == if |s| >= 2 then |s| else 2
    ensures r[|r| - |s|..] == s
    ensures forall k :: 0 <= k < |r| - |s| ==> r[k] == '0'
  {
    if |s| >= 2 then s else if |s| == 1 then "0" + s else "00"
  }
}

=== FILE: widgets.dfy ===
/** How a resolved value is put into a field: the dispatch of a structured
    question block to its dropdown, radio/checkbox, date or text rule, and
    the generic page's select, radio/checkbox and plain assignment. Each rule
    returns what it would do to the page (the option it clicks, the boxes it
    clicks, the values it writes) instead of doing it. */
module Widgets {
  import opened Text
  import opened Search
  import opened Matching
  import opened Fields

  // ---------------------------------------------------------------- option choice

  /** The containment rule of dropdowns and selects: either string includes the other. */
  predicate EitherIncludes(a: string, b: string) {
    Contains(a, b) || Contains(b, a)
  }

  /** An option's text fits a normalised value. */
  predicate TextFits(o: string, valText: string) {
    EitherIncludes(Normalize(o), valText)
  }

  function OptionFits(valText: string): string -> bool {
    (o: string) => TextFits(o, valText)
  }

  /** The option a dropdown or select takes for `value`: the first whose
      normalised text includes, or is included in, the normalised value. */
  function PickOption(options: seq<string>, value: string): (r: Option<nat>)
    ensures r.Some? ==> IsFirst(options, OptionFits(Normalize(value)), r.value)
    ensures r.None? ==> NoneMatch(options, OptionFits(Normalize(value)))
  {
    FindFirst(options, OptionFits(Normalize(value)))
  }

  /** An option whose text is blank fits every value (every string includes
      the empty one), so no option after it is ever taken. */
  lemma BlankOptionTakesOver(options: seq<string>, value: string, k: nat)
    requires k < |options| && Normalize(options[k]) == ""
    ensures PickOption(options, value).Some? && PickOption(options, value).value <= k
  {
    ContainsTrivial(Normalize(value));
    assert OptionFits(Normalize(value))(options[k]);
    FindFirstAtMost(options, OptionFits(Normalize(value)), k);
  }

  /** A value that is blank after trimming takes the first option. */
  lemma BlankValueTakesFirst(options: seq<string>, value: string)
    requires |options| > 0 && Normalize(value) == ""
    ensures PickOption(options, value) == Some(0)
  {
    ContainsTrivial(Normalize(options[0]));
    assert OptionFits(Normalize(value))(options[0]);
  }

  /** An option that equals the value up to case and surrounding white space
      is taken unless an earlier option also fits. */
  lemma EqualOptionFits(options: seq<string>, value: string, k: nat)
    requires k < |options| && Normalize(options[k]) == Normalize(value)
    ensures PickOption(options, value).Some? && PickOption(options, value).value <= k
  {
    ContainsTrivial(Normalize(value));
    FindFirstAtMost(options, OptionFits(Normalize(value)), k);
  }

  // ---------------------------------------------------------------- radio and checkbox groups

  /** The two synonym clusters of the choice rule. */
  const GenderClusters: seq<seq<string>> := [
    ["pria", "laki-laki", "laki laki", "lk", "male"],
    ["wanita", "perempuan", "pr", "female"]
  ]

  function InCluster(valText: string): seq<string> -> bool {
    (cluster: seq<string>) => valText in cluster
  }

  /** The terms a choice is compared with: the cluster holding the value,
      else the value alone. */
  function TargetTerms(valText: string): (r: seq<string>)
    ensures valText in r
    ensures forall c :: IsFirst(GenderClusters, InCluster(valText), c) ==> r == GenderClusters[c]
    ensures NoneMatch(GenderClusters, InCluster(valText)) ==> r == [valText]
  {
    match FindFirst(GenderClusters, InCluster(valText))
    case Some(c) => GenderClusters[c]
    case None => [valText]
  }

  /** A choice's label: its aria-label, else its text, lower-cased and trimmed. */
  function ChoiceLabel(c: Choice): string {
    Normalize(ChoiceText(c))
  }

  /** The choice rule: the label equals the value, or it and some target term
      include one another. */
  predicate ChoiceFits(optLabel: string, valText: string) {
    optLabel == valText ||
    exists k :: 0 <= k < |TargetTerms(valText)| && EitherIncludes(optLabel, TargetTerms(valText)[k])
  }

  predicate IsChecked(c: Choice) {
    c.ariaChecked == Some("true")
  }

  /** The radio and checkbox elements of a block, in order. */
  function Buttons(cs: seq<Choice>): (r: seq<Choice>)
    ensures |r| <= |cs|
    ensures forall c :: c in r <==> c in cs && c.role != OptionRole
    decreases |cs|
  {
    if |cs| == 0 then []
    else (if cs[0].role != OptionRole then [cs[0]] else []) + Buttons(cs[1..])
  }

  /** The button query is an order-preserving filter: one more choice at the
      end adds itself at the end exactly when it is a radio or checkbox. */
  lemma {:induction false} ButtonsSnoc(cs: seq<Choice>, c: Choice)
    ensures Buttons(cs + [c]) == Buttons(cs) + (if c.role != OptionRole then [c] else [])
    decreases |cs|
  {
    if |cs| > 0 {
      assert (cs + [c])[1..] == cs[1..] + [c];
      ButtonsSnoc(cs[1..], c);
    }
  }

  /** The block after a click on button `k`, which the fill only gives to an
      unchecked button: it becomes checked, and when it is a radio every other
      radio of the block (one question, one group) is unchecked. A checkbox
      click touches nothing else. */
  function ClickAt(bs: seq<Choice>, k: nat): (r: seq<Choice>)
    requires k < |bs|
    ensures |r| == |bs|
    ensures IsChecked(r[k])
    ensures forall j :: 0 <= j < |r| ==>
              r[j].role == bs[j].role && r[j].ariaLabel == bs[j].ariaLabel && r[j].text == bs[j].text
    ensures forall j :: 0 <= j < |r| && j != k && (bs[k].role != RadioRole || bs[j].role != RadioRole) ==> r[j] == bs[j]
    ensures bs[k].role == RadioRole ==>
              forall j :: 0 <= j < |r| && j != k && bs[j].role == RadioRole ==> !IsChecked(r[j])
  {
    seq(|bs|, j requires 0 <= j < |bs| =>
      if j == k then bs[j].(ariaChecked := Some("true"))
      else if bs[k].role == RadioRole && bs[j].role == RadioRole then bs[j].(ariaChecked := Some("false"))
      else bs[j])
  }

  /** Which buttons fit the normalised value. The loop reads each label when
      it reaches the button, but a click changes no label, so the mask can be
      taken once up front. */
  function FitMask(bs: seq<Choice>, valText: string): (fit: seq<bool>)
    ensures |fit| == |bs|
    ensures forall k :: 0 <= k < |bs| ==> (fit[k] <==> ChoiceFits(ChoiceLabel(bs[k]), valText))
  {
    seq(|bs|, k requires 0 <= k < |bs| => ChoiceFits(ChoiceLabel(bs[k]), valText))
  }

  /** The block after fillOptions has visited its first `n` buttons: a
      visited button is clicked when it fits and, at the moment it is
      visited, is not checked. */
  function Pass(bs: seq<Choice>, fit: seq<bool>, n: nat): (r: seq<Choice>)
    requires |fit| == |bs| && n <= |bs|
    ensures |r| == |bs|
    ensures forall j :: 0 <= j < |r| ==>
              r[j].role == bs[j].role && r[j].ariaLabel == bs[j].ariaLabel && r[j].text == bs[j].text
    decreases n
  {
    if n == 0 then bs
    else
      var s := Pass(bs, fit, n - 1);
      if fit[n - 1] && !IsChecked(s[n - 1]) then ClickAt(s, n - 1) else s
  }

  /** fillOptions: which buttons get clicked. A fitting button is clicked
      when it is unchecked at the moment the loop reaches it; nothing limits
      this to one. */
  function FillOptions(buttons: seq<Choice>, value: string): (clicks: seq<bool>)
    ensures |clicks| == |buttons|
    ensures forall k :: 0 <= k < |buttons| ==>
              (clicks[k] <==> ChoiceFits(ChoiceLabel(buttons[k]), Normalize(value))
                              && !IsChecked(Pass(buttons, FitMask(buttons, Normalize(value)), k)[k]))
  {
    var fit := FitMask(buttons, Normalize(value));
    seq(|buttons|, k requires 0 <= k < |buttons| => fit[k] && !IsChecked(Pass(buttons, fit, k)[k]))
  }

  /** The block once fillOptions is done. */
  function AfterOptions(buttons: seq<Choice>, value: string): (r: seq<Choice>)
    ensures |r| == |buttons|
    ensures forall j :: 0 <= j < |r| ==>
              r[j].role == buttons[j].role && r[j].ariaLabel == buttons[j].ariaLabel && r[j].text == buttons[j].text
  {
    Pass(buttons, FitMask(buttons, Normalize(value)), |buttons|)
  }

  // Checkboxes: each one answers to its own click only.

  /** After visiting `n` buttons a checkbox is checked exactly when it was
      checked before or it is among the visited ones and fits. */
  lemma {:induction false} PassCheckbox(bs: seq<Choice>, fit: seq<bool>, n: nat, k: nat)
    requires |fit| == |bs| && n <= |bs| && k < |bs| && bs[k].role == CheckboxRole
    ensures IsChecked(Pass(bs, fit, n)[k]) <==> IsChecked(bs[k]) || (k < n && fit[k])
    decreases n
  {
    if n > 0 {
      PassCheckbox(bs, fit, n - 1, k);
      var s := Pass(bs, fit, n - 1);
      if fit[n - 1] && !IsChecked(s[n - 1]) && k != n - 1 {
        assert s[k].role == CheckboxRole;
      }
    }
  }

  /** A checked checkbox is never clicked, so a checkbox is never turned off. */
  lemma CheckedNeverClicked(buttons: seq<Choice>, value: string, k: nat)
    requires k < |buttons| && buttons[k].role == CheckboxRole && IsChecked(buttons[k])
    ensures !FillOptions(buttons, value)[k]
  {
    PassCheckbox(buttons, FitMask(buttons, Normalize(value)), k, k);
  }

  /** After the fill a checkbox is checked exactly when it was before or it fits. */
  lemma CheckboxOutcome(buttons: seq<Choice>, value: string, k: nat)
    requires k < |buttons| && buttons[k].role == CheckboxRole
    ensures IsChecked(AfterOptions(buttons, value)[k]) <==>
              IsChecked(buttons[k]) || ChoiceFits(ChoiceLabel(buttons[k]), Normalize(value))
  {
    PassCheckbox(buttons, FitMask(buttons, Normalize(value)), |buttons|, k);
  }

  /** A checkbox whose label equals the value is checked after the fill. */
  lemma EqualLabelChecked(buttons: seq<Choice>, value: string, k: nat)
    requires k < |buttons| && buttons[k].role == CheckboxRole && ChoiceLabel(buttons[k]) == Normalize(value)
    ensures IsChecked(AfterOptions(buttons, value)[k])
  {
    CheckboxOutcome(buttons, value, k);
  }

  predicate AllCheckboxes(bs: seq<Choice>) {
    forall j :: 0 <= j < |bs| ==> bs[j].role == CheckboxRole
  }

  /** Buttons with the same labels fit the same values. */
  lemma SameLabelsSameMask(a: seq<Choice>, b: seq<Choice>, valText: string)
    requires |a| == |b|
    requires forall j :: 0 <= j < |a| ==> a[j].ariaLabel == b[j].ariaLabel && a[j].text == b[j].text
    ensures FitMask(a, valText) == FitMask(b, valText)
  {
    assert forall j :: 0 <= j < |a| ==> ChoiceLabel(a[j]) == ChoiceLabel(b[j]);
  }

  /** In a checkbox group, filling the same value again clicks nothing. */
  lemma FillOptionsSettles(buttons: seq<Choice>, value: string)
    requires AllCheckboxes(buttons)
    ensures forall k :: 0 <= k < |buttons| ==> !FillOptions(AfterOptions(buttons, value), value)[k]
  {
    var after := AfterOptions(buttons, value);
    var v := Normalize(value);
    SameLabelsSameMask(after, buttons, v);
    forall k | 0 <= k < |buttons|
      ensures !FillOptions(after, value)[k]
    {
      CheckboxOutcome(buttons, value, k);
      PassCheckbox(after, FitMask(after, v), k, k);
    }
  }

  // Radios: a click unchecks the rest of the group.

  /** At most one button is checked. */
  ghost predicate AtMostOneChecked(bs: seq<Choice>) {
    forall a, b :: 0 <= a < |bs| && 0 <= b < |bs| && IsChecked(bs[a]) && IsChecked(bs[b]) ==> a == b
  }

  predicate AllRadios(bs: seq<Choice>) {
    forall j :: 0 <= j < |bs| ==> bs[j].role == RadioRole
  }

  /** The visit keeps a radio group with at most one checked button so. */
  lemma {:induction false} PassKeepsOneChecked(bs: seq<Choice>, fit: seq<bool>, n: nat)
    requires |fit| == |bs| && n <= |bs| && AllRadios(bs) && AtMostOneChecked(bs)
    ensures AtMostOneChecked(Pass(bs, fit, n))
    decreases n
  {
    if n > 0 {
      PassKeepsOneChecked(bs, fit, n - 1);
      var s := Pass(bs, fit, n - 1);
      if fit[n - 1] && !IsChecked(s[n - 1]) {
        assert s[n - 1].role == RadioRole;
        var r := ClickAt(s, n - 1);
        forall j | 0 <= j < |r| && j != n - 1
          ensures !IsChecked(r[j])
        {
          assert s[j].role == RadioRole;
        }
      }
    }
  }

  /** Visits of buttons that do not fit change nothing. */
  lemma {:induction false} PassIdle(bs: seq<Choice>, fit: seq<bool>, n: nat, m: nat)
    requires |fit| == |bs| && n <= m <= |bs|
    requires forall j :: n <= j < m ==> !fit[j]
    ensures Pass(bs, fit, m) == Pass(bs, fit, n)
    decreases m
  {
    if n < m {
      PassIdle(bs, fit, n, m - 1);
    }
  }

  /** The first button is clicked whenever it fits and is unchecked. */
  lemma FirstButtonClicked(buttons: seq<Choice>, value: string)
    requires |buttons| > 0 && ChoiceFits(ChoiceLabel(buttons[0]), Normalize(value)) && !IsChecked(buttons[0])
    ensures FillOptions(buttons, value)[0]
  {
    assert Pass(buttons, FitMask(buttons, Normalize(value)), 0) == buttons;
  }

  /** Two unchecked radios that both fit: both are clicked, the second one
      stays checked, and filling again clicks the first once more. */
  lemma BothFitLaterWins(a: Choice, b: Choice, value: string)
    requires a.role == RadioRole && b.role == RadioRole && !IsChecked(a) && !IsChecked(b)
    requires ChoiceFits(ChoiceLabel(a), Normalize(value)) && ChoiceFits(ChoiceLabel(b), Normalize(value))
    ensures !IsChecked(AfterOptions([a, b], value)[0]) && IsChecked(AfterOptions([a, b], value)[1])
    ensures FillOptions(AfterOptions([a, b], value), value)[0]
  {
    LastFittingRadioWins([a, b], value, 1);
    var after := AfterOptions([a, b], value);
    assert ChoiceLabel(after[0]) == ChoiceLabel(a);
    FirstButtonClicked(after, value);
  }

  /** A fitting button is checked right after its visit: it was checked
      already, or it is clicked. */
  lemma VisitChecks(bs: seq<Choice>, fit: seq<bool>, k: nat)
    requires |fit| == |bs| && k < |bs| && fit[k]
    ensures IsChecked(Pass(bs, fit, k + 1)[k])
  {
    var s := Pass(bs, fit, k);
    if !IsChecked(s[k]) {
      assert Pass(bs, fit, k + 1) == ClickAt(s, k);
    }
  }

  lemma OnlyOneChecked(bs: seq<Choice>, k: nat)
    requires k < |bs| && IsChecked(bs[k]) && AtMostOneChecked(bs)
    ensures forall j :: 0 <= j < |bs| && j != k ==> !IsChecked(bs[j])
  {
  }

  /** The visit of a radio group ends with the last fitting radio as the
      only checked one. */
  lemma PassLastFit(bs: seq<Choice>, fit: seq<bool>, last: nat)
    requires |fit| == |bs| && AllRadios(bs) && AtMostOneChecked(bs)
    requires last < |bs| && fit[last] && forall j :: last < j < |bs| ==> !fit[j]
    ensures IsChecked(Pass(bs, fit, |bs|)[last])
    ensures forall j :: 0 <= j < |bs| && j != last ==> !IsChecked(Pass(bs, fit, |bs|)[j])
  {
    VisitChecks(bs, fit, last);
    PassKeepsOneChecked(bs, fit, last + 1);
    PassIdle(bs, fit, last + 1, |bs|);
    OnlyOneChecked(Pass(bs, fit, last + 1), last);
  }

  /** In a radio group with at most one checked button, the LAST fitting
      radio ends up the only checked one: every earlier fitting radio is
      clicked and then unchecked again by a later click. */
  lemma LastFittingRadioWins(buttons: seq<Choice>, value: string, last: nat)
    requires AllRadios(buttons) && AtMostOneChecked(buttons)
    requires last < |buttons| && ChoiceFits(ChoiceLabel(buttons[last]), Normalize(value))
    requires forall j :: last < j < |buttons| ==> !ChoiceFits(ChoiceLabel(buttons[j]), Normalize(value))
    ensures IsChecked(AfterOptions(buttons, value)[last])
    ensures forall j :: 0 <= j < |buttons| && j != last ==> !IsChecked(AfterOptions(buttons, value)[j])
  {
    PassLastFit(buttons, FitMask(buttons, Normalize(value)), last);
  }

  /** The clusters are matched by inclusion, so "pr" is inside "pria": a
      female value also clicks the male option "Pria". */
  lemma FemaleValueClicksPria()
    ensures ChoiceFits("pria", "perempuan")
  {
    assert InCluster("perempuan")(GenderClusters[1]);
    assert !InCluster("perempuan")(GenderClusters[0]);
    assert IsFirst(GenderClusters, InCluster("perempuan"), 1);
    assert TargetTerms("perempuan")[2] == "pr";
    assert OccursAt("pria", "pr", 0);
    ContainsIff("pria", "pr");
  }

  /** And "male" is inside "female": a male value also fits "Female". */
  lemma MaleValueClicksFemale()
    ensures ChoiceFits("female", "male")
  {
    assert InCluster("male")(GenderClusters[0]);
    assert IsFirst(GenderClusters, InCluster("male"), 0);
    assert TargetTerms("male")[4] == "male";
    assert OccursAt("female", "male", 2);
    ContainsIff("female", "male");
  }

  // ---------------------------------------------------------------- dates

  /** A date as the filler splits it; each part stays a string. */
  datatype Date = Date(year: string, month: string, day: string)

  /** Splits at '-', '/' or '.'. A four-character first part means year
      first; otherwise a four-character third part means day first; any
      other shape, or fewer than three parts, is no date. Parts beyond the
      third are ignored and nothing checks the ranges. */
  function ParseDate(value: string): (r: Option<Date>)
    ensures var p := SplitDate(value);
            && (|p| < 3 ==> r.None?)
            && (|p| >= 3 && |p[0]| == 4 ==> r == Some(Date(p[0], p[1], p[2])))
            && (|p| >= 3 && |p[0]| != 4 && |p[2]| == 4 ==> r == Some(Date(p[2], p[1], p[0])))
            && (|p| >= 3 && |p[0]| != 4 && |p[2]| != 4 ==> r.None?)
    ensures r.Some? ==> |r.value.year| == 4
    ensures r.Some? ==> NoDateSep(r.value.year) && NoDateSep(r.value.month) && NoDateSep(r.value.day)
  {
    var parts := SplitDate(value);
    if |parts| < 3 then None
    else if |parts[0]| == 4 then Some(Date(parts[0], parts[1], parts[2]))
    else if |parts[2]| == 4 then Some(Date(parts[2], parts[1], parts[0]))
    else None
  }

  /** A year-first date written with any separators parses back to its parts. */
  lemma ParseYearFirst(y: string, m: string, d: string, s1: char, s2: char)
    requires |y| == 4 && NoDateSep(y) && NoDateSep(m) && NoDateSep(d)
    requires IsDateSep(s1) && IsDateSep(s2)
    ensures ParseDate(y + [s1] + m + [s2] + d) == Some(Date(y, m, d))
  {
    SplitDateWhole(d);
    SplitDatePiece(m, s2, d);
    assert y + [s1] + m + [s2] + d == y + [s1] + (m + [s2] + d);
    SplitDatePiece(y, s1, m + [s2] + d);
  }

  /** A day-first date with a four-character year parses back to its parts,
      unless the day itself has four characters. */
  lemma ParseDayFirst(d: string, m: string, y: string, s1: char, s2: char)
    requires |y| == 4 && |d| != 4 && NoDateSep(y) && NoDateSep(m) && NoDateSep(d)
    requires IsDateSep(s1) && IsDateSep(s2)
    ensures ParseDate(d + [s1] + m + [s2] + y) == Some(Date(y, m, d))
  {
    SplitDateWhole(y);
    SplitDatePiece(m, s2, y);
    assert d + [s1] + m + [s2] + y == d + [s1] + (m + [s2] + y);
    SplitDatePiece(d, s1, m + [s2] + y);
  }

  /** Only the first three parts count: whatever follows a third separator
      is ignored, so a year-first date with a trailing time still parses. */
  lemma ParseIgnoresExtraParts(y: string, m: string, d: string, s1: char, s2: char, s3: char, rest: string)
    requires |y| == 4 && NoDateSep(y) && NoDateSep(m) && NoDateSep(d)
    requires IsDateSep(s1) && IsDateSep(s2) && IsDateSep(s3)
    ensures ParseDate(y + [s1] + m + [s2] + d + [s3] + rest) == Some(Date(y, m, d))
  {
    var t3 := d + [s3] + rest;
    var t2 := m + [s2] + t3;
    var t1 := y + [s1] + t2;
    assert y + [s1] + m + [s2] + d + [s3] + rest == t1;
    SplitDatePiece(d, s3, rest);
    SplitDatePiece(m, s2, t3);
    SplitDatePiece(y, s1, t2);
  }

  /** Three parts none of which has four characters are no date: "1-2-3". */
  lemma ShortPartsNoDate()
    ensures ParseDate("1-2-3") == None
  {
    assert NoDateSep("1") && NoDateSep("2") && NoDateSep("3");
    SplitDateWhole("3");
    SplitDatePiece("2", '-', "3");
    assert "1-2-3" == "1" + ['-'] + ("2" + ['-'] + "3");
    SplitDatePiece("1", '-', "2" + ['-'] + "3");
  }

  /** Where a date input gets its value. */
  datatype Slot = DaySlot | MonthSlot | YearSlot | WholeDate | NoSlot

  /** The lower-cased aria-label and placeholder, empty when absent. */
  function AriaText(c: Control): string {
    Lower(Or(c.ariaLabel, ""))
  }

  function HintText(c: Control): string {
    Lower(Or(c.placeholder, ""))
  }

  /** The aria-label words for each part, English and Indonesian. */
  predicate NamesDay(t: string) {
    Contains(t, "day") || Contains(t, "hari") || Contains(t, "tanggal")
  }

  predicate NamesMonth(t: string) {
    Contains(t, "month") || Contains(t, "bulan")
  }

  predicate NamesYear(t: string) {
    Contains(t, "year") || Contains(t, "tahun")
  }

  predicate NamesPart(t: string) {
    NamesDay(t) || NamesMonth(t) || NamesYear(t)
  }

  /** The placeholder patterns. */
  predicate HintsPart(t: string) {
    Contains(t, "dd") || Contains(t, "mm") || Contains(t, "yyyy")
  }

  /** aria-label words are checked first (English and Indonesian), then the
      placeholder's dd, mm, yyyy, then a native date input takes the whole date. */
  function SlotOf(c: Control): (r: Slot)
    ensures NamesDay(AriaText(c)) ==> r == DaySlot
    ensures !NamesDay(AriaText(c)) && NamesMonth(AriaText(c)) ==> r == MonthSlot
    ensures !NamesDay(AriaText(c)) && !NamesMonth(AriaText(c)) && NamesYear(AriaText(c)) ==> r == YearSlot
    ensures !NamesPart(AriaText(c)) && Contains(HintText(c), "dd") ==> r == DaySlot
    ensures !NamesPart(AriaText(c)) && !Contains(HintText(c), "dd") && Contains(HintText(c), "mm") ==> r == MonthSlot
    ensures (!NamesPart(AriaText(c)) && !Contains(HintText(c), "dd") && !Contains(HintText(c), "mm")
             && Contains(HintText(c), "yyyy")) ==> r == YearSlot
    ensures r == WholeDate <==> !NamesPart(AriaText(c)) && !HintsPart(HintText(c)) && c.typeAttr == Some("date")
    ensures r == NoSlot <==> !NamesPart(AriaText(c)) && !HintsPart(HintText(c)) && c.typeAttr != Some("date")
  {
    var aria := AriaText(c);
    var hint := HintText(c);
    if NamesDay(aria) then DaySlot
    else if NamesMonth(aria) then MonthSlot
    else if NamesYear(aria) then YearSlot
    else if Contains(hint, "dd") then DaySlot
    else if Contains(hint, "mm") then MonthSlot
    else if Contains(hint, "yyyy") then YearSlot
    else if c.typeAttr == Some("date") then WholeDate
    else NoSlot
  }

  /** The value of a native date input: year-month-day with month and day padded to two digits. */
  function WholeDateText(d: Date): string {
    d.year + "-" + Pad2(d.month) + "-" + Pad2(d.day)
  }

  /** The whole-date value is itself a year-first date that parses back to
      the same year and the padded month and day. */
  lemma WholeDateRoundTrip(d: Date)
    requires |d.year| == 4 && NoDateSep(d.year) && NoDateSep(d.month) && NoDateSep(d.day)
    ensures ParseDate(WholeDateText(d)) == Some(Date(d.year, Pad2(d.month), Pad2(d.day)))
  {
    assert NoDateSep(Pad2(d.month)) && NoDateSep(Pad2(d.day));
    assert WholeDateText(d) == d.year + ['-'] + Pad2(d.month) + ['-'] + Pad2(d.day);
    ParseYearFirst(d.year, Pad2(d.month), Pad2(d.day), '-', '-');
  }

  /** fillDate: the value written to each input of the block (None where
      nothing is written). An unparsable value writes nothing. */
  function FillDate(controls: seq<Control>, value: string): (writes: seq<Option<string>>)
    ensures |writes| == |controls|
    ensures ParseDate(value).None? ==> forall k :: 0 <= k < |writes| ==> writes[k].None?
    ensures forall k :: 0 <= k < |writes| ==>
              (writes[k].Some? <==> ParseDate(value).Some? && controls[k].tag == InputTag && SlotOf(controls[k]) != NoSlot)
    ensures forall k :: 0 <= k < |writes| && writes[k].Some? ==>
              var d := ParseDate(value).value;
              && (SlotOf(controls[k]) == DaySlot ==> writes[k].value == d.day)
              && (SlotOf(controls[k]) == MonthSlot ==> writes[k].value == d.month)
              && (SlotOf(controls[k]) == YearSlot ==> writes[k].value == d.year)
              && (SlotOf(controls[k]) == WholeDate ==> writes[k].value == WholeDateText(d))
  {
    match ParseDate(value)
    case None => seq(|controls|, k => None)
    case Some(d) =>
      seq(|controls|, k requires 0 <= k < |controls| =>
        if controls[k].tag != InputTag then None
        else match SlotOf(controls[k])
          case DaySlot => Some(d.day)
          case MonthSlot => Some(d.month)
          case YearSlot => Some(d.year)
          case WholeDate => Some(WholeDateText(d))
          case NoSlot => None)
  }

  /** A year-first date puts its own day, month and year parts into the day,
      month and year inputs, whatever separators it uses. */
  lemma FillDateParts(controls: seq<Control>, y: string, m: string, d: string, s1: char, s2: char, k: nat)
    requires |y| == 4 && NoDateSep(y) && NoDateSep(m) && NoDateSep(d)
    requires IsDateSep(s1) && IsDateSep(s2)
    requires k < |controls| && controls[k].tag == InputTag
    ensures SlotOf(controls[k]) == DaySlot ==> FillDate(controls, y + [s1] + m + [s2] + d)[k] == Some(d)
    ensures SlotOf(controls[k]) == MonthSlot ==> FillDate(controls, y + [s1] + m + [s2] + d)[k] == Some(m)
    ensures SlotOf(controls[k]) == YearSlot ==> FillDate(controls, y + [s1] + m + [s2] + d)[k] == Some(y)
  {
    ParseYearFirst(y, m, d, s1, s2);
  }

  /** A "dd/mm/yyyy" placeholder holds "dd", which is checked first: such an
      input gets only the day. */
  lemma DayMonthYearPlaceholderGetsDay(c: Control)
    requires c.ariaLabel.None? && c.placeholder == Some("dd/mm/yyyy")
    ensures SlotOf(c) == DaySlot
  {
    assert OccursAt("dd/mm/yyyy", "dd", 0);
    ContainsIff("dd/mm/yyyy", "dd");
  }

  // ---------------------------------------------------------------- plain text

  /** Inputs the text rule writes to: text, email and number inputs (by their
      type attribute) and textareas. The selector matches the attribute, so
      an input with no type attribute, a text input all the same, is not one. */
  predicate TextLike(c: Control): (r: bool)
    ensures r ==> c.tag != SelectTag && !(c.tag == InputTag && (c.typeAttr == Some("radio") || c.typeAttr == Some("checkbox")))
    ensures c.tag == TextareaTag ==> r
    ensures c.tag == InputTag && c.typeAttr.None? ==> !r
  {
    c.tag == TextareaTag ||
    (c.tag == InputTag && (c.typeAttr == Some("text") || c.typeAttr == Some("email") || c.typeAttr == Some("number")))
  }

  /** The text rule: every text-like control whose value differs gets the value. */
  function FillText(controls: seq<Control>, value: string): (writes: seq<Option<string>>)
    ensures |writes| == |controls|
    ensures forall k :: 0 <= k < |controls| ==>
              (writes[k].Some? <==> TextLike(controls[k]) && controls[k].value != value)
    ensures forall k :: 0 <= k < |controls| && writes[k].Some? ==> writes[k].value == value
  {
    seq(|controls|, k requires 0 <= k < |controls| =>
      if TextLike(controls[k]) && controls[k].value != value then Some(value) else None)
  }

  /** The controls after the writes. */
  function Write(controls: seq<Control>, writes: seq<Option<string>>): (r: seq<Control>)
    requires |writes| == |controls|
    ensures |r| == |controls|
    ensures forall k :: 0 <= k < |r| ==> r[k].(value := controls[k].value) == controls[k]
    ensures forall k :: 0 <= k < |r| && writes[k].Some? ==> r[k].value == writes[k].value
    ensures forall k :: 0 <= k < |r| && writes[k].None? ==> r[k] == controls[k]
  {
    seq(|controls|, k requires 0 <= k < |controls| =>
      controls[k].(value := if writes[k].Some? then writes[k].value else controls[k].value))
  }

  /** After the text rule every text-like control holds the value, and
      filling again writes nothing. */
  lemma FillTextSettles(controls: seq<Control>, value: string)
    ensures var after := Write(controls, FillText(controls, value));
            && (forall k :: 0 <= k < |after| && TextLike(controls[k]) ==> after[k].value == value)
            && (forall k :: 0 <= k < |after| ==> FillText(after, value)[k].None?)
  {
  }

  // ---------------------------------------------------------------- fillField

  /** A date input by the block's selector: a date-typed input, or one whose
      aria-label includes "Day", "Month" or "Year" (case-sensitive). */
  predicate DateInput(c: Control): (r: bool)
    ensures r ==> c.tag == InputTag
    ensures c.tag == InputTag && c.typeAttr == Some("date") ==> r
  {
    c.tag == InputTag &&
    (c.typeAttr == Some("date") ||
     (c.ariaLabel.Some? && (Contains(c.ariaLabel.value, "Day") || Contains(c.ariaLabel.value, "Month") || Contains(c.ariaLabel.value, "Year"))))
  }

  /** "Day" in an aria-label is "day" once lower-cased. */
  lemma CapitalWordLowered(t: string, w: string, lw: string)
    requires Contains(t, w) && Lower(w) == lw
    ensures Contains(Lower(t), lw)
  {
    ContainsIff(t, w);
    var i :| OccursAt(t, w, i);
    LowerKeepsOccurrence(t, w, i);
    ContainsIff(Lower(t), lw);
  }

  /** Every input the date selector finds gets a part of the date, or the
      whole date: the selector's capitalised aria words are among the
      lower-cased words the slot rule reads. */
  lemma DateInputHasSlot(c: Control)
    requires DateInput(c)
    ensures SlotOf(c) != NoSlot
  {
    if c.typeAttr != Some("date") {
      var a := c.ariaLabel.value;
      assert Or(c.ariaLabel, "") == a;
      if Contains(a, "Day") {
        assert Lower("Day") == "day" by { assert Lower("Day")[0] as int == 'D' as int + 32; }
        CapitalWordLowered(a, "Day", "day");
      } else if Contains(a, "Month") {
        assert Lower("Month") == "month" by { assert Lower("Month")[0] as int == 'M' as int + 32; }
        CapitalWordLowered(a, "Month", "month");
      } else {
        assert Lower("Year") == "year" by { assert Lower("Year")[0] as int == 'Y' as int + 32; }
        CapitalWordLowered(a, "Year", "year");
      }
    }
  }

  /** So once the value parses, the date rule writes every input its
      selector found. */
  lemma DateInputsWritten(controls: seq<Control>, value: string, k: nat)
    requires k < |controls| && DateInput(controls[k]) && ParseDate(value).Some?
    ensures FillDate(controls, value)[k].Some?
  {
    DateInputHasSlot(controls[k]);
  }

  predicate HasDateInputs(controls: seq<Control>) {
    exists k :: 0 <= k < |controls| && DateInput(controls[k])
  }

  /** What filling a question block does. */
  datatype BlockFill =
    | Skipped
    | DropdownFill(pick: Option<nat>)
    | ButtonFill(clicks: seq<bool>)
    | DateFill(writes: seq<Option<string>>)
    | TextFill(writes: seq<Option<string>>)

  /** fillField: an empty value does nothing; otherwise the first of
      dropdown, radio/checkbox, date inputs and text inputs that the block
      holds decides, and only that rule runs. `pageOptions` are the texts of
      the option elements on the whole page once the dropdown is open. */
  function FillBlock(c: Container, pageOptions: seq<string>, value: string): (r: BlockFill)
    ensures r.Skipped? <==> value == ""
    ensures r.DropdownFill? <==> value != "" && c.hasListbox
    ensures r.ButtonFill? <==> value != "" && !c.hasListbox && |Buttons(c.choices)| > 0
    ensures r.DateFill? <==> value != "" && !c.hasListbox && |Buttons(c.choices)| == 0 && HasDateInputs(c.controls)
    ensures r.DropdownFill? ==> r.pick == PickOption(pageOptions, value)
    ensures r.ButtonFill? ==> r.clicks == FillOptions(Buttons(c.choices), value)
    ensures r.DateFill? ==> r.writes == FillDate(c.controls, value)
    ensures r.TextFill? ==> r.writes == FillText(c.controls, value)
  {
    if value == "" then Skipped
    else if c.hasListbox then DropdownFill(PickOption(pageOptions, value))
    else if |Buttons(c.choices)| > 0 then ButtonFill(FillOptions(Buttons(c.choices), value))
    else if HasDateInputs(c.controls) then DateFill(FillDate(c.controls, value))
    else TextFill(FillText(c.controls, value))
  }

  /** A block that also holds text inputs but has radio buttons is filled by
      the button rule alone: no text input is written. */
  lemma ButtonsShadowText(c: Container, pageOptions: seq<string>, value: string)
    requires value != "" && !c.hasListbox && |Buttons(c.choices)| > 0
    ensures !FillBlock(c, pageOptions, value).TextFill? && !FillBlock(c, pageOptions, value).DateFill?
  {
  }

  // ---------------------------------------------------------------- generic pages

  /** What filling a generic element does. */
  datatype ElementFill =
    | Untouched
    | SelectFill(selected: Option<nat>)
    | CheckFill(click: bool)
    | Assign(newValue: string)
    | Rejected  // a file input refuses a non-empty value and throws, ending the pass

  predicate IsToggle(c: Control) {
    c.tag == InputTag && (c.typeAttr == Some("radio") || c.typeAttr == Some("checkbox"))
  }

  /** `<input type="file">`, whose value a script may only clear. */
  predicate IsFileInput(c: Control) {
    c.tag == InputTag && c.typeAttr == Some("file")
  }

  /** The label a toggle is compared with: aria-label, else the parent's text. */
  function ToggleLabel(e: Element): (r: string)
    ensures Truthy(e.control.ariaLabel) ==> r == Normalize(e.control.ariaLabel.value)
    ensures !Truthy(e.control.ariaLabel) ==> r == Normalize(e.parentText)
  {
    Normalize(Or(e.control.ariaLabel, e.parentText))
  }

  /** fillGenericField: a select takes its first fitting option; a radio or
      checkbox is clicked when unchecked and its label and the value include
      one another; a file input throws; anything else is assigned the raw
      value. */
  function FillElement(e: Element, value: string): (r: ElementFill)
    ensures r.Untouched? <==> value == ""
    ensures r.SelectFill? <==> value != "" && e.control.tag == SelectTag
    ensures r.SelectFill? ==> r.selected == PickOption(e.options, value)
    ensures r.CheckFill? <==> value != "" && IsToggle(e.control)
    ensures r.CheckFill? ==> (r.click <==> !e.checked && EitherIncludes(ToggleLabel(e), Normalize(value)))
    ensures r.Rejected? <==> value != "" && IsFileInput(e.control)
    ensures r.Assign? <==> value != "" && e.control.tag != SelectTag && !IsToggle(e.control) && !IsFileInput(e.control)
    ensures r.Assign? ==> r.newValue == value
  {
    if value == "" then Untouched
    else if e.control.tag == SelectTag then SelectFill(PickOption(e.options, value))
    else if IsToggle(e.control) then
      var shown := ToggleLabel(e);
      var valText := Normalize(value);
      CheckFill((shown == valText || EitherIncludes(shown, valText)) && !e.checked)
    else if IsFileInput(e.control) then Rejected
    else Assign(value)
  }

  /** A toggle with no label text fits every value, so every unchecked
      unlabelled radio or checkbox is clicked. */
  lemma UnlabelledToggleClicked(e: Element, value: string)
    requires value != "" && IsToggle(e.control) && !e.checked && ToggleLabel(e) == ""
    ensures FillElement(e, value) == CheckFill(true)
  {
    ContainsTrivial(Normalize(value));
  }
}
